=== FILE: README.md ===
# Kislinka engine model

A Dafny model of the game engine of the Kislinka platformer (`App.tsx`). The
player runs and jumps across platforms, fires a gun, a fishing rod or a
trident at sour enemies, bosses and the king, and picks up potions. The game
moves through the screens `menu`, `levelSelect`, `playing`, `cutscene`,
`reward`, `gameover` and `win`.

The model has two layers.

- **Pure layer.** The whole run state is one `Entities.World` value: the
  React state (state, stage, hp, ammo, power-up timer) and the refs (player,
  enemies, projectiles, items, platforms, goal, reward marker). Every engine
  operation is a function on it:
  - stage setup `Stage.LoadStage` (`initLevel`);
  - weapon discharge `Weapons.Fire` (`shoot`);
  - the per-tick step `Tick.Step` (`update`);
  - the screen buttons and the end of the cutscene in `Flow`.

  Each `forEach` loop of `update` is an index fold over its collection:
  - `Physics.LandUpTo` (platforms);
  - `Pickups.CollectUpTo` (items);
  - `Combat.VolleyUpTo` (projectiles), with `Combat.StrikeUpTo` for each
    projectile's inner walk over the enemies;
  - `Patrol.PatrolUpTo` (enemies).

  The lemmas state what the source promises about these folds.
- **Imperative layer.** `Game.Game` is a class whose fields are that state.
  Its methods update the fields in place, with one `while` loop per
  `forEach`. Each method is proved to leave exactly
  `Spec(old(Snapshot()))` for its pure counterpart `Spec`. Each externally
  called method also keeps the run invariant `Entities.Inv`:
  - hp in [0, 3], ammo >= 0, timer in [0, 5];
  - at most one live hook;
  - every hp-tracked enemy has hp <= maxHp, and hp > 0 while alive;
  - the stage index in range.

Numbers are Dafny `real`, so the constants of `constants.ts` and the factors
0.8, 0.02 and 1/60 are exact rationals (see "Left out" for rounding).

## Model

| member | source | states |
|---|---|---|
| Geometry.Overlaps | App.tsx:271 | the open box test used for goals, items (App.tsx:225) and enemy contact (App.tsx:261): boxes that only share an edge do not overlap |
| Geometry.Contains | App.tsx:236 | the strict point test of the hit check: a point on the border is outside, and only a box of positive size contains anything |
| Geometry.Min | App.tsx:188 | the smaller of two values, used to cap the reward opacity at 1 |
| Geometry.Max | App.tsx:182 | the larger of two values, used to floor the power-up countdown at 0 |
| Entities.Initial | App.tsx:8-35 | the state before any stage is loaded is on the title screen and satisfies the run invariant |
| Stage.WeaponForLevel | App.tsx:90 | stage 9 arms the trident, stages 7 and 8 the rod, every earlier stage the gun (each as an if-and-only-if) |
| Stage.StageLayout | App.tsx:98-133 | every stage has exactly one living enemy, every platform lies inside the 800-wide canvas, and so does every goal except the king's; `Stage.StageLayoutShape` states each layout |
| Stage.LoadStage | App.tsx:80-134 | a load keeps the stage index (its callers set it), the reward marker, the empowered flag and the facing, and always ends in `playing` or `cutscene`; `Stage.LoadStageResets` states what it resets |
| Stage.LoadStageResets | App.tsx:80-95 | a load gives hp 3, ammo 12, timer 0, no projectiles, the player at (50,400) at rest and not jumping, the stage's weapon, state `cutscene` for stage 9 and `playing` otherwise; the empowered flag survives; loading twice gives the same state as loading once |
| Stage.StageLayoutShape | App.tsx:98-133 | one living boss with hp = maxHp 40 (stage 1) or 70 (stage 6); the king with 150 on stage 9 only; otherwise three platforms, one hp-less sour enemy, and a potion exactly on the even stages after 0 |
| Stage.LoadStageKeepsInv | App.tsx:80-134 | a stage load establishes the run invariant |
| Weapons.Damage | App.tsx:240 | a trident hit costs 15 (with or without the fire flag), a mop hit 10 and any other hit 2 |
| Weapons.DamageTiers | App.tsx:240 | the tiers are strictly ordered: trident 15 > mop 10 > anything else 2 |
| Weapons.Spawn | App.tsx:143-150 | a new projectile is active and player-owned, carries its shot kind, leaves from (x+20, y+20) as a square of the given size, and for a unit aim vector flies at exactly the given speed |
| Weapons.Fire | App.tsx:136-156 | outside `playing` a shot changes nothing; otherwise it appends at most one projectile, keeps the existing ones, changes nothing but projectiles and ammo, and never raises ammo or takes it below 0 |
| Weapons.FireGun | App.tsx:139-153 | an empty gun without the power-up fires nothing; with the power-up it fires a mop shot at no cost; otherwise it fires a plain shot for exactly one round |
| Weapons.RodLockedOut | App.tsx:145-146 | while a hook is live the rod fires nothing, in any state; since no projectile is ever removed and a hook that hits nothing stays active (`Combat.StrikeShape`), a missed hook locks the rod until the next stage load |
| Weapons.FireRod | App.tsx:144-146 | the rod is refused while a live hook exists, otherwise it appends exactly one hook, at no ammo cost |
| Weapons.FireTrident | App.tsx:142-143 | the trident always appends exactly one projectile whose fire flag is the player's empowered flag, at no ammo cost |
| Weapons.FireKeepsOneHook | App.tsx:144-146 | firing never makes a second hook live |
| Weapons.FireKeepsInv | App.tsx:136-156 | firing keeps the run invariant |
| Weapons.GunDrainsMagazine | App.tsx:139-153 | without the power-up, n gun shots cost min(n, ammo) rounds and spawn that many projectiles |
| Weapons.TwelveShotsEmptyMagazine | App.tsx:81-153 | on a gun stage the 12 rounds of a fresh load are spent by 12 shots, and a 13th shot changes nothing |
| Weapons.FindLiveHook | App.tsx:145 | the scan answers true exactly when some projectile is an active hook |
| Physics.Move | App.tsx:198-206 | left wins over right and sets vx to -5.5, right sets 5.5, neither multiplies vx by 0.8; a jump (vy = -13.5) starts only when not already jumping; gravity 0.5 is added before x and y advance by the new velocity |
| Physics.LandsOn | App.tsx:209 | a landing needs a falling player (vy > 0 strictly) whose box meets the band reaching 10 + vy below the platform top; `Physics.LandingIsExact` states its effect |
| Physics.Snap | App.tsx:210 | a landing changes only y, vy and the jumping flag: the player's bottom on the platform top, at rest, grounded; a snapped player no longer passes the test of that platform |
| Physics.RestingPlayerIsResnapped | App.tsx:206-210 | gravity comes before the test, so a player standing still on a platform gets vy 0.5, passes the test and is put back on the same spot |
| Physics.NotFallingPassesThrough | App.tsx:209 | a player whose vy after gravity is <= 0 lands on nothing, so a rising player passes through platforms from below |
| Physics.LandUpTo | App.tsx:208-212 | the platform loop changes only the player's y, vy and jumping flag |
| Physics.Land | App.tsx:208-212 | the platform loop changes only the player's y, vy and jumping flag |
| Physics.LandOnFirstSupport | App.tsx:208-212 | with no platform passing the landing test the player is untouched; otherwise the player rests on the first platform that passes it, since a landing zeroes vy and later tests fail |
| Physics.LandingIsExact | App.tsx:209-210 | when any platform passes the test, afterwards y + 45 is the top of such a platform, vy = 0 and the player is not jumping |
| Pickups.Touches | App.tsx:224-225 | an inactive item is never collected; a collected item's box overlaps the 45×45 player box |
| Pickups.CollectOne | App.tsx:224-229 | one item step keeps the number of items |
| Pickups.CollectUpTo | App.tsx:223-230 | the item loop keeps the number of items |
| Pickups.Collect | App.tsx:223-230 | the whole item loop changes only items, ammo and timer; ammo grows by 15 per ammo box taken and a potion sets the timer to 5; `Pickups.CollectEffects` states each item's fate |
| Pickups.CollectEffects | App.tsx:223-230 | each touched active item becomes inactive and is otherwise unchanged; ammo grows by exactly 15 per ammo box taken; a potion overwrites the timer with 5 instead of adding to it; nothing else changes |
| Pickups.CollectNeverRevives | App.tsx:224-226 | an item that is inactive stays inactive, so each item is consumed at most once |
| Pickups.CollectKeepsInv | App.tsx:223-230 | the item loop keeps the run invariant |
| Combat.Hits | App.tsx:236-237 | a hit needs a living enemy, a player-owned projectile and its top-left corner strictly inside the enemy's box |
| Combat.HitsIgnoreActive | App.tsx:236-237 | the hit test does not look at the projectile's `active` flag, so a projectile spent on one enemy still hits the next |
| Combat.Anchor | App.tsx:245 | the reward marker starts fully transparent at the exact centre of the fallen enemy, which lies inside its box |
| Combat.Wound | App.tsx:239-248 | an hp-less enemy dies on the first hit; a tracked one loses exactly its damage tier, with no clamp, and is dead exactly when it was dead already or its hp is now <= 0 |
| Combat.StrikeOne | App.tsx:236-249 | one projectile-enemy step keeps the number of projectiles and enemies |
| Combat.StrikeUpTo | App.tsx:235-251 | the inner enemy walk keeps the number of projectiles and enemies |
| Combat.Launch | App.tsx:233-251 | one projectile step keeps the number of projectiles and enemies |
| Combat.VolleyUpTo | App.tsx:232-252 | the projectile loop keeps the number of projectiles and enemies |
| Combat.Volley | App.tsx:232-252 | the whole projectile loop changes only projectiles, enemies, state and marker; projectiles only go from active to inactive and enemies only weaken; `Combat.VolleyEffects` states the reward cause |
| Combat.AllWeakenedTrans | App.tsx:236-248 | weakening composes over successive hits: kind kept, dead stays unchanged, hp never rises |
| Combat.SpentKeepsOneHook | App.tsx:238 | deactivating projectiles cannot create a second live hook |
| Combat.RewardCauseTrans | App.tsx:243-245 | the reward cause composes: a `reward` state still comes from a king slain in the span, with the marker at its centre |
| Combat.StrikeOneShape | App.tsx:236-249 | one step of the inner walk: on a hit the projectile is deactivated and the enemy wounded, otherwise neither changes; only projectiles, enemies, state and marker can change |
| Combat.StrikeShape | App.tsx:235-251 | the inner walk wounds exactly the enemies the projectile's top-left corner is strictly inside, without re-checking `active`, so one projectile hits every such enemy; the projectile is deactivated exactly when at least one hit happened; only the enemies, that projectile, the state and the reward marker change |
| Combat.StrikeOneReward | App.tsx:241-246 | a hit that kills the hp-tracked king sets `reward` with the marker at the king's centre and opacity 0; any other hit leaves state and marker alone |
| Combat.StrikeReward | App.tsx:235-251 | over the inner walk, the state changes only to `reward` and only because a king was slain, and a slain king always leaves `reward` |
| Combat.LaunchEffects | App.tsx:233-251 | one turn of the projectile loop changes only projectiles, enemies, state and marker; no projectile is re-activated or changes kind or owner; enemies only weaken; tracked hp stays sound; a `reward` state comes only from a slain king |
| Combat.VolleyEffects | App.tsx:232-252 | over the projectile loop, projectiles only go from active to inactive; enemies only weaken and a dead one is never changed again; a `reward` state comes only from a slain king |
| Combat.VolleyKeepsInv | App.tsx:232-252 | the projectile loop keeps the run invariant |
| Patrol.Patrolled | App.tsx:256-260 | the patrol move changes only the enemy's x, y and direction |
| Patrol.Touches | App.tsx:261 | a dead enemy never touches the player; a touching enemy's box after its move overlaps the player's box |
| Patrol.PatrolOne | App.tsx:255-268 | one enemy step keeps the number of enemies |
| Patrol.PatrolUpTo | App.tsx:254-269 | the enemy loop keeps the number of enemies |
| Patrol.PatrolAll | App.tsx:254-269 | the whole enemy loop changes only the enemies, hp, state and the player's vx, keeps their number, and leaves a dead enemy exactly as it was; `Patrol.PatrolMoves` and `Patrol.PatrolHurts` state the moves and the damage |
| Patrol.KnockbackAway | App.tsx:261-266 | a contact the player survives costs exactly one hp and sets vx to -15 if the player is left of the moved enemy, else 15 |
| Patrol.PatrolOneShape | App.tsx:255-260 | one step of the enemy loop moves that enemy if it is alive and leaves it as it was if dead; only hp, state and the player's vx change besides |
| Patrol.PatrolMoves | App.tsx:254-260 | living enemies take their patrol move and dead ones stay exactly as they were; only hp, state and the player's vx can change otherwise |
| Patrol.PatrolHurts | App.tsx:261-268 | with n touching enemies, hp drops by exactly n, or to 0 with state `gameover` once it runs out; vx is left alone or set to -15 or 15 |
| Patrol.PatrolKeepsEnemies | App.tsx:254-260 | every enemy keeps its kind, death flag and hp pool during the patrol |
| Patrol.PatrolKeepsInv | App.tsx:254-269 | the enemy loop keeps the run invariant |
| Tick.DecayTimer | App.tsx:182 | a timer of at least 1/60 drops by exactly 1/60, a smaller positive one drops to 0, a non-positive one is untouched |
| Tick.DecayN | App.tsx:182 | n ticks of countdown keep a non-negative timer between 0 and its start |
| Tick.DecayLinear | App.tsx:182 | while time is left, n ticks take exactly n/60 off the timer |
| Tick.PotionLasts300Ticks | App.tsx:228 | the potion's timer of 5 is still positive after 299 ticks and exactly 0 after 300 |
| Tick.ClaimReward | App.tsx:187-196 | the reward block acts only in `reward`; it changes only the marker, the empowered flag and the state; the state stays or becomes `win`, and the flag is set exactly when it does; the opacity rises but stays <= 1 |
| Tick.FallOff | App.tsx:214-221 | a player above the bottom edge is untouched; a fall changes only hp, state and the player, costs one hp while some is left, never takes hp below 0, and changes the state only to `gameover` with hp 0 |
| Tick.ReachGoal | App.tsx:271-275 | without goal overlap nothing changes; with it at stage L, L+1 < 10 loads stage L+1 (index L+1, hp 3, 12 rounds, no projectiles, its layout, `cutscene` exactly for stage 9 and `playing` otherwise) and otherwise only the state changes, to `win`; the empowered flag survives |
| Tick.Prelude | App.tsx:182-212 | countdown, reward block, movement and landing leave enemies, projectiles, items, platforms, goal, stage and hp alone, and a tick in `playing` stays in `playing` through them |
| Tick.Middle | App.tsx:214-252 | fall, items and projectiles keep the number of enemies and of projectiles; `Tick.MiddleEffects` states the rest |
| Tick.Step | App.tsx:179-276 | outside `playing` and `reward` a tick changes nothing; the lemmas below state what a tick keeps and changes |
| Tick.ClaimRewardEffect | App.tsx:187-196 | in `reward` the marker opacity rises by 0.02 capped at 1; a player centre within 50 of the marker sets the empowered flag and `win`; otherwise the player is untouched |
| Tick.FallOffEffect | App.tsx:214-221 | a fall below 600 costs exactly one hp; with none left hp is 0 and state `gameover`, otherwise the player respawns at (50,400) with vy 0 |
| Tick.StepIdle | App.tsx:180 | outside `playing` and `reward` a tick changes nothing |
| Tick.PreludeKeepsInv | App.tsx:182-212 | countdown, reward block, movement and landing keep the run invariant and leave enemies and platforms alone |
| Tick.MiddleKeepsInv | App.tsx:214-252 | fall, item and projectile phases keep the run invariant |
| Tick.StepKeepsInv | App.tsx:179-276 | every tick keeps the run invariant (hp in [0,3], ammo >= 0, at most one live hook, sound enemy hp) |
| Tick.PatrolWeakens | App.tsx:254-269 | the enemy loop never raises hp or revives an enemy |
| Tick.MiddleEffects | App.tsx:214-252 | across fall, items and projectiles, enemies only weaken, stage and goal stay, and a `reward` state is inherited or comes from a slain king |
| Tick.StepWeakensOrAdvances | App.tsx:232-275 | a tick either only weakens the enemies (hp never rises, death is permanent) or loads stage L+1 with its fresh enemies in `playing` or `cutscene` |
| Tick.StepRewardOnlyFromKing | App.tsx:241-275 | a tick from `playing` ends in `reward` only if a king fell during it, with the marker at that king's centre |
| Tick.StepKeepsFireTrident | App.tsx:187-196 | the empowered trident is never lost, and reaching the marker in `reward` grants it |
| Flow.OpenStageSelect | App.tsx:424 | PLAY GAME acts only on the title screen and changes only the screen, to `levelSelect` |
| Flow.SelectStage | App.tsx:433 | a stage button acts only on stage select, and there sets the stage index, full hp and no projectiles |
| Flow.BackToMenu | App.tsx:438 | BACK TO MENU acts only on stage select and changes only the screen, to `menu` |
| Flow.Resurrect | App.tsx:472 | RESURRECT acts only on the defeat screen, keeps the stage index and the empowered flag, and from `gameover` restores full hp and leaves that screen |
| Flow.ReturnToMenu | App.tsx:486 | MAIN MENU acts only on the victory screen and changes only the screen, to `menu` |
| Flow.EndCutscene | App.tsx:119 | the cutscene's end acts only in `cutscene` and changes only the screen, to `playing` |
| Flow.MenuRoundTrip | App.tsx:424-438 | PLAY GAME opens stage select and BACK TO MENU undoes it |
| Flow.SelectStageStarts | App.tsx:433 | a stage button sets the stage index and loads it; stage 9 opens with the cutscene and every other stage starts play; the cutscene's end starts play on the same stage |
| Flow.ResurrectRestarts | App.tsx:472 | RESURRECT reloads the current stage with full hp and 12 rounds, keeping the empowered flag and leaving `gameover` |
| Flow.FlowKeepsInv | App.tsx:119-486 | every screen transition keeps the run invariant |
| Game.Game.constructor | App.tsx:8-35 | the fresh engine is the initial state |
| Game.Game.InitLevel | App.tsx:80-134 | the in-place stage setup leaves exactly the state of the stage-load function and keeps the run invariant |
| Game.Game.BuildStage | App.tsx:98-133 | the in-place layout construction installs exactly the stage's layout, switching to `cutscene` only on stage 9 |
| Game.Game.Shoot | App.tsx:136-156 | the in-place shot leaves exactly the state of the fire function and keeps the run invariant |
| Game.Game.Update | App.tsx:179-276 | the in-place tick leaves exactly the state of the step function and keeps the run invariant |
| Game.Game.CountDown | App.tsx:182 | the countdown changes only the timer, as the decay function says |
| Game.Game.ClaimRewardIfNear | App.tsx:187-196 | the reward block leaves exactly the state of the claim function |
| Game.Game.MovePlayer | App.tsx:198-206 | the in-place movement gives exactly the moved player and changes nothing else |
| Game.Game.LandOnPlatforms | App.tsx:208-212 | the platform loop gives exactly the landed player and changes nothing else |
| Game.Game.CheckFall | App.tsx:214-221 | the fall check leaves exactly the state of the fall function |
| Game.Game.CollectItems | App.tsx:223-230 | the item loop leaves exactly the state of the pickup fold |
| Game.Game.MoveProjectiles | App.tsx:232-252 | the projectile loop leaves exactly the state of the projectile fold |
| Game.Game.StrikeEnemies | App.tsx:235-251 | the inner enemy loop leaves exactly the state of the strike fold |
| Game.Game.StrikeEnemy | App.tsx:236-249 | the in-place hit test of one projectile on one enemy leaves exactly the state of the one-step strike function |
| Game.Game.PatrolEnemy | App.tsx:255-268 | the in-place move and contact check of one enemy leaves exactly the state of the one-step patrol function |
| Game.Game.MoveEnemies | App.tsx:254-269 | the enemy loop leaves exactly the state of the patrol fold |
| Game.Game.CheckGoal | App.tsx:271-275 | the in-place goal check leaves exactly the state of `Tick.ReachGoal`: goal overlap at stage L loads L+1 when L+1 < 10 and sets `win` otherwise |
| Game.Game.PressPlay | App.tsx:424 | PLAY GAME moves from `menu` to `levelSelect` |
| Game.Game.PressStage | App.tsx:433 | a stage button sets the stage index and loads that stage, keeping the run invariant |
| Game.Game.PressBack | App.tsx:438 | BACK TO MENU moves from `levelSelect` to `menu` |
| Game.Game.PressResurrect | App.tsx:472 | RESURRECT reloads the current stage from `gameover` |
| Game.Game.PressMainMenu | App.tsx:486 | MAIN MENU moves from `win` to `menu` |
| Game.Game.CloseCutscene | App.tsx:119 | the cutscene's end moves from `cutscene` to `playing` |

## Left out

- Rendering (`draw`), the JSX screens and the HUD: presentation only. The buttons are modelled by their state changes.
- Audio (`playSound`), asset loading, screen shake and the landing squash: presentation and I/O with no effect on the engine state.
- Keyboard, mouse and touch handlers: a tick takes a left/right/jump `Input`, and a shot takes the cosine and sine of the aim angle.
- Trigonometry: the boss bob `sin(frame * 0.05) * 1.5` is a parameter `bob` of the tick, and the frame counter is not kept. The reward distance test compares squared distances, dx² + dy² < 2500.
- The `requestAnimationFrame` loop and the `setTimeout` dialog lines: scheduling. The cutscene's end is the event `CloseCutscene` / `Flow.EndCutscene`.
- `Flow.EndCutscene`: fires only in `cutscene`, although the source's timer sets `playing` whatever the state. No other event can change the state while the cutscene is up.
- `spawnAmmo`: it is never called and it draws a random platform.
- React's deferred `setState` updaters and stale closures: each update is applied at once and every later read sees it. So a fall respawn and a knockback act within the same tick.
- Fields nobody reads in the engine: the player record's `score`, `health`, `ammo`, `hasGun` and `mopTimer`, its width and height (always 45), the dialog text, the duplicate `activeWeapon` state, `activeHookPoint`, item velocities and projectile colours. types.ts's optional enemy fields (`lastShootTime`, `isRed`, `isHooked`, `phase`) and the `isHeal` projectile flag are never set by the engine.
- IEEE-754 double rounding of 0.8, 0.02 and 1/60: the model computes exactly, so the countdown from 5 reaches 0 after exactly 300 ticks (`Tick.PotionLasts300Ticks`), while in doubles the accumulated rounding of `- 1/60` can make it take one tick more.
- Patrol.Patrolled: its contract names only the fields the patrol move may change. The move itself is stated by `Patrol.PatrolMoves` together with the definition.

Facts of the code that the model keeps as written:

- The empowered trident deals 15 damage, the same as the plain trident. The damage code (App.tsx:240) never reads the fire flag; only the drawing code uses it to pick the sprite.
- The king's stage has a 0×0 goal at (-200, -200). A strict overlap with the 45×45 player needs the player at -245 < y < -200 and -245 < x < -200, which the stage's geometry does not allow. The model keeps the box as written.
- The hit test is a strict point test on the projectile's top-left corner, not a box overlap, and the enemy walk does not re-check `active`, so one projectile hits every enemy its corner is inside.
- A landing needs vy > 0 strictly after gravity. A player moving up passes through a platform from below, and so does one whose vy after gravity is exactly 0. A player standing still gets vy 0.5 from gravity and is snapped back onto its platform every tick.
- Tracked enemy hp is not clamped at 0, and a king's death during the projectile loop does not end the tick.
- No projectile is ever removed or expires, so a hook that hits nothing stays live for the rest of the stage and the rod fires nothing until the next stage load (`Weapons.RodLockedOut`).

=== FILE: combat.dfy ===
/** Projectile movement and hits on enemies: the walk over the projectiles,
    each of which walks over the enemies. */
module Combat {
  import opened Geometry
  import opened Entities
  import opened Weapons

  /** The hit test: a living enemy, a player-owned projectile, and the
      projectile's top-left corner strictly inside the enemy. The projectile's
      own `active` flag is not looked at. */
  predicate Hits(pr: Projectile, en: Enemy)
    ensures Hits(pr, en) ==> !en.isDead && pr.isPlayerOwned
    ensures Hits(pr, en) ==> en.x < pr.x < en.x + en.width && en.y < pr.y < en.y + en.height
  {
    !en.isDead && Contains(en.Bounds(), pr.x, pr.y) && pr.isPlayerOwned
  }

  /** A projectile that is already spent still hits: the test ignores `active`. */
  lemma HitsIgnoreActive(pr: Projectile, en: Enemy)
    ensures Hits(pr, en) <==> Hits(pr.(active := false), en)
  {
  }

  /** The effect of one hit on an enemy. */
  function Wound(en: Enemy, s: Shot): (r: Enemy)
    ensures r == en.(pool := r.pool, isDead := r.isDead)
    ensures en.pool.Untracked? ==> r.isDead && r.pool == Untracked
    ensures en.pool.Tracked? ==>
      && r.pool == Tracked(en.pool.hp - Damage(s), en.pool.maxHp)
      && (r.isDead <==> en.isDead || r.pool.hp <= 0)
  {
    match en.pool
    case Untracked => en.(isDead := true)
    case Tracked(hp, maxHp) =>
      var left := hp - Damage(s);
      if left <= 0 then en.(pool := Tracked(left, maxHp), isDead := true)
      else en.(pool := Tracked(left, maxHp))
  }

  /** Where the reward marker appears: the centre of the fallen king, fully transparent. */
  function Anchor(en: Enemy): (m: Marker)
    ensures m.alpha == 0.0
    ensures en.width > 0.0 && en.height > 0.0 ==> Contains(en.Bounds(), m.x, m.y)
    ensures m.x - en.x == en.x + en.width - m.x && m.y - en.y == en.y + en.height - m.y
  {
    Marker(en.x + en.width / 2.0, en.y + en.height / 2.0, 0.0)
  }

  /** Inner loop body: projectile `i` against enemy `j`. */
  function StrikeOne(w: World, i: nat, j: nat): (r: World)
    requires i < |w.projectiles| && j < |w.enemies|
    ensures |r.projectiles| == |w.projectiles| && |r.enemies| == |w.enemies|
  {
    var pr := w.projectiles[i];
    var en := w.enemies[j];
    if !Hits(pr, en) then w
    else
      var hit := Wound(en, pr.shot);
      var w1 := w.(projectiles := w.projectiles[i := pr.(active := false)], enemies := w.enemies[j := hit]);
      if en.pool.Tracked? && hit.isDead && en.kind == King then w1.(state := Reward, reward := Anchor(hit))
      else w1
  }

  /** The inner loop of projectile `i` after its first `k` enemies. */
  function StrikeUpTo(w: World, i: nat, k: nat): (r: World)
    requires i < |w.projectiles| && k <= |w.enemies|
    ensures |r.projectiles| == |w.projectiles| && |r.enemies| == |w.enemies|
  {
    if k == 0 then w else StrikeOne(StrikeUpTo(w, i, k - 1), i, k - 1)
  }

  /** Outer loop body: an active projectile moves one step and then meets every enemy. */
  function Launch(w: World, i: nat): (r: World)
    requires i < |w.projectiles|
    ensures |r.projectiles| == |w.projectiles| && |r.enemies| == |w.enemies|
  {
    var pr := w.projectiles[i];
    if !pr.active then w
    else StrikeUpTo(w.(projectiles := w.projectiles[i := pr.(x := pr.x + pr.vx, y := pr.y + pr.vy)]), i, |w.enemies|)
  }

  /** The projectile loop after its first `k` projectiles. */
  function VolleyUpTo(w: World, k: nat): (r: World)
    requires k <= |w.projectiles|
    ensures |r.projectiles| == |w.projectiles| && |r.enemies| == |w.enemies|
  {
    if k == 0 then w else Launch(VolleyUpTo(w, k - 1), k - 1)
  }

  /** The whole projectile loop: only projectiles, enemies, state and marker
      change; projectiles only go from active to inactive and enemies only
      weaken. */
  function Volley(w: World): (r: World)
    ensures r == w.(projectiles := r.projectiles, enemies := r.enemies, state := r.state, reward := r.reward)
    ensures AllSpent(w.projectiles, r.projectiles) && AllWeakened(w.enemies, r.enemies)
  {
    VolleyEffects(w, |w.projectiles|);
    VolleyUpTo(w, |w.projectiles|)
  }

  // ----- Relations between the enemies, projectiles and state before and after -----

  /** An enemy after some hits: same kind, a dead one is untouched, hp never rises. */
  predicate Weakened(before: Enemy, after: Enemy) {
    && after.kind == before.kind
    && (before.isDead ==> after == before)
    && (before.pool.Untracked? <==> after.pool.Untracked?)
    && (before.pool.Tracked? ==> after.pool.hp <= before.pool.hp && after.pool.maxHp == before.pool.maxHp)
  }

  predicate AllWeakened(before: seq<Enemy>, after: seq<Enemy>) {
    |after| == |before| && forall j :: 0 <= j < |before| ==> Weakened(before[j], after[j])
  }

  lemma AllWeakenedTrans(a: seq<Enemy>, b: seq<Enemy>, c: seq<Enemy>)
    requires AllWeakened(a, b) && AllWeakened(b, c)
    ensures AllWeakened(a, c)
  {
    forall j | 0 <= j < |a| ensures Weakened(a[j], c[j]) {
      assert Weakened(a[j], b[j]) && Weakened(b[j], c[j]);
    }
  }

  /** A projectile after the loop: same kind and owner, and never re-activated. */
  predicate Spent(before: Projectile, after: Projectile) {
    after.shot == before.shot && after.isPlayerOwned == before.isPlayerOwned && (after.active ==> before.active)
  }

  predicate AllSpent(before: seq<Projectile>, after: seq<Projectile>) {
    |after| == |before| && forall i :: 0 <= i < |before| ==> Spent(before[i], after[i])
  }

  lemma SpentKeepsOneHook(before: seq<Projectile>, after: seq<Projectile>)
    requires AllSpent(before, after) && AtMostOneHook(before)
    ensures AtMostOneHook(after)
  {
    forall i, j | 0 <= i < |after| && 0 <= j < |after| && LiveHook(after[i]) && LiveHook(after[j])
      ensures i == j
    {
      assert Spent(before[i], after[i]) && Spent(before[j], after[j]);
    }
  }

  /** A living hp-tracked king that is dead afterwards (an hp-less king would
      die without starting the reward sequence). */
  predicate KingSlain(before: Enemy, after: Enemy) {
    before.kind == King && before.pool.Tracked? && !before.isDead && after.isDead
  }

  /** Either the state and the reward marker are as before, or the state is
      `reward` because a king was slain, with the marker at that king's centre. */
  predicate RewardCause(w: World, r: World) {
    || (r.state == w.state && r.reward == w.reward)
    || (r.state == Reward &&
          exists j :: (0 <= j < |w.enemies| && j < |r.enemies| &&
                       KingSlain(w.enemies[j], r.enemies[j]) && r.reward == Anchor(r.enemies[j])))
  }

  /** A king slain anywhere in the span leaves the state at `reward`. */
  predicate SlainMeansReward(w: World, r: World) {
    (exists j :: 0 <= j < |w.enemies| && j < |r.enemies| && KingSlain(w.enemies[j], r.enemies[j])) ==> r.state == Reward
  }

  lemma RewardCauseTrans(a: World, b: World, c: World)
    requires AllWeakened(a.enemies, b.enemies) && AllWeakened(b.enemies, c.enemies)
    requires RewardCause(a, b) && RewardCause(b, c)
    requires SlainMeansReward(a, b) && SlainMeansReward(b, c)
    requires b.state == Reward ==> c.state == Reward
    ensures RewardCause(a, c) && SlainMeansReward(a, c)
  {
    if !(c.state == b.state && c.reward == b.reward) {
      var j :| 0 <= j < |b.enemies| && j < |c.enemies| && KingSlain(b.enemies[j], c.enemies[j]) && c.reward == Anchor(c.enemies[j]);
      assert Weakened(a.enemies[j], b.enemies[j]);
    } else if !(b.state == a.state && b.reward == a.reward) {
      var j :| 0 <= j < |a.enemies| && j < |b.enemies| && KingSlain(a.enemies[j], b.enemies[j]) && b.reward == Anchor(b.enemies[j]);
      assert Weakened(b.enemies[j], c.enemies[j]);
    }
    if exists j :: 0 <= j < |a.enemies| && j < |c.enemies| && KingSlain(a.enemies[j], c.enemies[j]) {
      var j :| 0 <= j < |a.enemies| && j < |c.enemies| && KingSlain(a.enemies[j], c.enemies[j]);
      assert Weakened(a.enemies[j], b.enemies[j]) && Weakened(b.enemies[j], c.enemies[j]);
      if !b.enemies[j].isDead {
        assert KingSlain(b.enemies[j], c.enemies[j]);
      } else {
        assert KingSlain(a.enemies[j], b.enemies[j]);
      }
    }
  }

  // ----- The inner loop -----

  /** One step of the inner loop: on a hit, projectile `i` is deactivated and
      enemy `j` wounded; otherwise neither changes. */
  lemma StrikeOneShape(q: World, i: nat, j: nat)
    requires i < |q.projectiles| && j < |q.enemies|
    ensures var r := StrikeOne(q, i, j); var pr := q.projectiles[i];
      && r == q.(projectiles := r.projectiles, enemies := r.enemies, state := r.state, reward := r.reward)
      && r.enemies == q.enemies[j := if Hits(pr, q.enemies[j]) then Wound(q.enemies[j], pr.shot) else q.enemies[j]]
      && r.projectiles == q.projectiles[i := if Hits(pr, q.enemies[j]) then pr.(active := false) else pr]
  {
  }

  /** Projectile `i` hurts every living enemy it is inside, one after the other,
      even after its first hit has deactivated it; it ends up inactive exactly
      when it hit something. Only the enemies, projectile `i`, the state and the
      reward marker change. */
  lemma {:induction false} StrikeShape(w: World, i: nat, k: nat)
    requires i < |w.projectiles| && k <= |w.enemies|
    ensures var r := StrikeUpTo(w, i, k);
      && r == w.(projectiles := r.projectiles, enemies := r.enemies, state := r.state, reward := r.reward)
      && (forall j :: 0 <= j < |w.enemies| ==>
            r.enemies[j] == (if j < k && Hits(w.projectiles[i], w.enemies[j]) then Wound(w.enemies[j], w.projectiles[i].shot)
                             else w.enemies[j]))
      && r.projectiles == w.projectiles[i := if exists j :: 0 <= j < k && Hits(w.projectiles[i], w.enemies[j])
                                             then w.projectiles[i].(active := false) else w.projectiles[i]]
  {
    if k > 0 {
      StrikeShape(w, i, k - 1);
      var q := StrikeUpTo(w, i, k - 1);
      StrikeOneShape(q, i, k - 1);
      var pr := w.projectiles[i];
      assert Hits(q.projectiles[i], q.enemies[k - 1]) == Hits(pr, w.enemies[k - 1]);
      assert q.projectiles[i].shot == pr.shot;
      if !Hits(pr, w.enemies[k - 1]) && exists j :: 0 <= j < k && Hits(pr, w.enemies[j]) {
        var j :| 0 <= j < k && Hits(pr, w.enemies[j]);
        assert j < k - 1;
      }
    }
  }

  /** One hit changes the state only to `reward`, and only by slaying a king,
      and a slain king always leaves the state at `reward`. */
  lemma StrikeOneReward(q: World, i: nat, j: nat)
    requires i < |q.projectiles| && j < |q.enemies|
    ensures var r := StrikeOne(q, i, j);
      && AllWeakened(q.enemies, r.enemies)
      && RewardCause(q, r) && SlainMeansReward(q, r)
      && (q.state == Reward ==> r.state == Reward)
  {
    var r := StrikeOne(q, i, j);
    var pr := q.projectiles[i];
    forall j' | 0 <= j' < |q.enemies| ensures Weakened(q.enemies[j'], r.enemies[j']) {
    }
    if Hits(pr, q.enemies[j]) {
      var hit := Wound(q.enemies[j], pr.shot);
      if q.enemies[j].pool.Tracked? && hit.isDead && q.enemies[j].kind == King {
        assert KingSlain(q.enemies[j], r.enemies[j]) && r.reward == Anchor(r.enemies[j]);
      } else {
        forall j' | 0 <= j' < |q.enemies| ensures !KingSlain(q.enemies[j'], r.enemies[j']) {
        }
      }
    }
  }

  lemma {:induction false} StrikeReward(w: World, i: nat, k: nat)
    requires i < |w.projectiles| && k <= |w.enemies|
    ensures var r := StrikeUpTo(w, i, k);
      AllWeakened(w.enemies, r.enemies) && RewardCause(w, r) && SlainMeansReward(w, r)
  {
    if k > 0 {
      StrikeReward(w, i, k - 1);
      var q := StrikeUpTo(w, i, k - 1);
      var r := StrikeOne(q, i, k - 1);
      assert r == StrikeUpTo(w, i, k);
      StrikeOneReward(q, i, k - 1);
      AllWeakenedTrans(w.enemies, q.enemies, r.enemies);
      RewardCauseTrans(w, q, r);
    }
  }

  // ----- The outer loop -----

  /** One turn of the projectile loop keeps the relations above. */
  lemma LaunchEffects(q: World, i: nat)
    requires i < |q.projectiles|
    ensures var r := Launch(q, i);
      && r == q.(projectiles := r.projectiles, enemies := r.enemies, state := r.state, reward := r.reward)
      && AllSpent(q.projectiles, r.projectiles)
      && AllWeakened(q.enemies, r.enemies)
      && (AllSound(q.enemies) ==> AllSound(r.enemies))
      && RewardCause(q, r) && SlainMeansReward(q, r)
  {
    var r := Launch(q, i);
    var pr := q.projectiles[i];
    if pr.active {
      var moved := q.(projectiles := q.projectiles[i := pr.(x := pr.x + pr.vx, y := pr.y + pr.vy)]);
      StrikeShape(moved, i, |q.enemies|);
      StrikeReward(moved, i, |q.enemies|);
      assert AllWeakened(q.enemies, r.enemies) by {
        forall j | 0 <= j < |q.enemies| ensures Weakened(q.enemies[j], r.enemies[j]) {
        }
      }
      assert AllSpent(q.projectiles, r.projectiles) by {
        forall i' | 0 <= i' < |q.projectiles| ensures Spent(q.projectiles[i'], r.projectiles[i']) {
        }
      }
      assert AllSound(q.enemies) ==> AllSound(r.enemies) by {
        forall j | 0 <= j < |q.enemies| && Sound(q.enemies[j]) ensures Sound(r.enemies[j]) {
        }
      }
    }
  }

  /** The projectile loop only weakens enemies (a dead enemy is never moved or
      hit again), never re-activates or re-kinds a projectile, and changes the
      state only to `reward`, when a king falls, with the marker at its centre. */
  lemma {:induction false} VolleyEffects(w: World, k: nat)
    requires k <= |w.projectiles|
    ensures var r := VolleyUpTo(w, k);
      && r == w.(projectiles := r.projectiles, enemies := r.enemies, state := r.state, reward := r.reward)
      && AllSpent(w.projectiles, r.projectiles)
      && AllWeakened(w.enemies, r.enemies)
      && (AllSound(w.enemies) ==> AllSound(r.enemies))
      && RewardCause(w, r) && SlainMeansReward(w, r)
  {
    if k > 0 {
      VolleyEffects(w, k - 1);
      var q := VolleyUpTo(w, k - 1);
      var r := Launch(q, k - 1);
      LaunchEffects(q, k - 1);
      assert AllSpent(w.projectiles, r.projectiles) by {
        forall i | 0 <= i < |w.projectiles| ensures Spent(w.projectiles[i], r.projectiles[i]) {
          assert Spent(w.projectiles[i], q.projectiles[i]) && Spent(q.projectiles[i], r.projectiles[i]);
        }
      }
      AllWeakenedTrans(w.enemies, q.enemies, r.enemies);
      RewardCauseTrans(w, q, r);
    }
  }

  lemma VolleyKeepsInv(w: World)
    requires Inv(w)
    ensures Inv(Volley(w))
  {
    VolleyEffects(w, |w.projectiles|);
    SpentKeepsOneHook(w.projectiles, Volley(w).projectiles);
  }
}

=== FILE: entities.dfy ===
/** The records of the engine (types.ts) and the run state that App.tsx keeps in
    React state and refs, gathered into one `World` value. */
module Entities {
  import opened Geometry

  /** Every stage index lies in [0, STAGE_COUNT). */
  const STAGE_COUNT: int := 10
  /** The player is a 45 x 45 square. */
  const PLAYER_SIZE: real := 45.0
  /** Hearts after a stage load, and the ceiling of the hp counter. */
  const MAX_HP: int := 3
  /** Length, in seconds, of the infinite-ammo window a potion grants. */
  const POTION_TIME: real := 5.0

  datatype Weapon = Gun | Rod | Trident

  datatype GameState = Menu | LevelSelect | Playing | Cutscene | Reward | GameOver | Win

  /** The fields of the player record that the engine reads or writes. */
  datatype Player = Player(
    x: real, y: real, vx: real, vy: real,
    isJumping: bool, isFacingLeft: bool,
    weapon: Weapon, isFireTrident: bool)
  {
    function Bounds(): Box { Box(x, y, PLAYER_SIZE, PLAYER_SIZE) }
  }

  datatype EnemyKind = Sour | Boss | King

  /** The optional `hp`/`maxHp` pair of an enemy as a tagged variant. */
  datatype HpPool = Untracked | Tracked(hp: int, maxHp: int)

  datatype Enemy = Enemy(
    x: real, y: real, width: real, height: real, vx: real, vy: real,
    kind: EnemyKind, direction: real, isDead: bool, pool: HpPool)
  {
    function Bounds(): Box { Box(x, y, width, height) }
  }

  /** The mutually exclusive kind flags of a projectile (isMop, isHook, isTrident + isFire). */
  datatype Shot = PlainShot | MopShot | HookShot | TridentShot(isFire: bool)

  datatype Projectile = Projectile(
    x: real, y: real, width: real, height: real, vx: real, vy: real,
    active: bool, isPlayerOwned: bool, shot: Shot)

  datatype ItemKind = AmmoBox | Potion | TridentPickup

  datatype Item = Item(x: real, y: real, width: real, height: real, active: bool, kind: ItemKind)
  {
    function Bounds(): Box { Box(x, y, width, height) }
  }

  datatype Platform = Platform(x: real, y: real, width: real, height: real, color: string)

  /** The reward marker left where the king died, with its fade-in opacity. */
  datatype Marker = Marker(x: real, y: real, alpha: real)

  /** Everything one tick, one shot or one button press can read or change. */
  datatype World = World(
    state: GameState, level: nat, hp: int, ammo: int, timer: real,
    player: Player,
    enemies: seq<Enemy>, projectiles: seq<Projectile>, items: seq<Item>, platforms: seq<Platform>,
    goal: Box, reward: Marker)

  predicate LiveHook(pr: Projectile) {
    pr.active && pr.shot.HookShot?
  }

  predicate HasLiveHook(ps: seq<Projectile>) {
    exists i :: 0 <= i < |ps| && LiveHook(ps[i])
  }

  /** No two distinct projectiles are live hooks. */
  predicate AtMostOneHook(ps: seq<Projectile>) {
    forall i, j :: 0 <= i < |ps| && 0 <= j < |ps| && LiveHook(ps[i]) && LiveHook(ps[j]) ==> i == j
  }

  /** A tracked enemy never has more hp than its maximum, and one that is still
      alive has hp left. */
  predicate Sound(en: Enemy) {
    match en.pool
    case Untracked => true
    case Tracked(hp, maxHp) => hp <= maxHp && (!en.isDead ==> hp > 0)
  }

  predicate AllSound(es: seq<Enemy>) {
    forall j :: 0 <= j < |es| ==> Sound(es[j])
  }

  /** The invariant of the run state. */
  predicate Inv(w: World) {
    && 0 <= w.hp <= MAX_HP
    && w.ammo >= 0
    && 0.0 <= w.timer <= POTION_TIME
    && w.level < STAGE_COUNT
    && 0.0 <= w.reward.alpha <= 1.0
    && AtMostOneHook(w.projectiles)
    && AllSound(w.enemies)
  }

  /** The state before any stage is loaded: the initial values of App.tsx. */
  function Initial(): (w: World)
    ensures Inv(w) && w.state == Menu
  {
    World(Menu, 0, MAX_HP, 12, 0.0,
          Player(50.0, 500.0, 0.0, 0.0, false, false, Gun, false),
          [], [], [], [], Box(750.0, 100.0, 60.0, 60.0), Marker(0.0, 0.0, 0.0))
  }
}

=== FILE: flow.dfy ===
/** The screen buttons and the end of the king's cutscene: the transitions of
    the game state that are not part of a tick. Each button exists only on its
    own screen, so a press on any other screen changes nothing. */
module Flow {
  import opened Entities
  import opened Stage

  /** PLAY GAME on the title screen. */
  function OpenStageSelect(w: World): (r: World)
    ensures w.state != Menu ==> r == w
    ensures r == w.(state := r.state) && (r.state == LevelSelect || r == w)
  {
    if w.state == Menu then w.(state := LevelSelect) else w
  }

  /** A stage button `i` on the stage-select screen: the stage index is set
      and the stage is loaded. */
  function SelectStage(w: World, i: nat): (r: World)
    requires i < STAGE_COUNT
    ensures w.state != LevelSelect ==> r == w
    ensures w.state == LevelSelect ==> r.level == i && r.hp == MAX_HP && r.projectiles == []
  {
    if w.state == LevelSelect then LoadStage(w, i).(level := i) else w
  }

  /** BACK TO MENU on the stage-select screen. */
  function BackToMenu(w: World): (r: World)
    ensures w.state != LevelSelect ==> r == w
    ensures r == w.(state := r.state) && (r.state == Menu || r == w)
  {
    if w.state == LevelSelect then w.(state := Menu) else w
  }

  /** RESURRECT on the defeat screen: the current stage is loaded again. */
  function Resurrect(w: World): (r: World)
    requires w.level < STAGE_COUNT
    ensures w.state != GameOver ==> r == w
    ensures r.level == w.level && r.player.isFireTrident == w.player.isFireTrident
    ensures w.state == GameOver ==> r.hp == MAX_HP && r.state != GameOver
  {
    if w.state == GameOver then LoadStage(w, w.level) else w
  }

  /** MAIN MENU on the victory screen. */
  function ReturnToMenu(w: World): (r: World)
    ensures w.state != Win ==> r == w
    ensures r == w.(state := r.state) && (r.state == Menu || r == w)
  {
    if w.state == Win then w.(state := Menu) else w
  }

  /** The delayed callback that closes the king's cutscene and starts play. */
  function EndCutscene(w: World): (r: World)
    ensures w.state != Cutscene ==> r == w
    ensures r == w.(state := r.state) && (r.state == Playing || r == w)
  {
    if w.state == Cutscene then w.(state := Playing) else w
  }

  /** Leaving the stage-select screen undoes entering it. */
  lemma MenuRoundTrip(w: World)
    requires w.state == Menu
    ensures OpenStageSelect(w).state == LevelSelect
    ensures BackToMenu(OpenStageSelect(w)) == w
  {
  }

  /** A stage button starts stage `i` with full hp and 12 rounds; play begins
      at once except on stage 9, which opens with the cutscene, and closing the
      cutscene then starts play on the same stage. */
  lemma SelectStageStarts(w: World, i: nat)
    requires w.state == LevelSelect && i < STAGE_COUNT
    ensures var r := SelectStage(w, i);
      && r.level == i && r.hp == MAX_HP && r.ammo == 12 && r.projectiles == []
      && r.enemies == StageLayout(i).enemies && r.player.weapon == WeaponForLevel(i)
      && (r.state == Cutscene <==> i == 9)
      && (r.state == Playing <==> i != 9)
      && EndCutscene(r).state == Playing && EndCutscene(r).level == i
  {
    LoadStageResets(w, i);
  }

  /** After a defeat the same stage starts over with full hp and 12 rounds; the
      empowered trident flag survives the restart. */
  lemma ResurrectRestarts(w: World)
    requires w.state == GameOver && w.level < STAGE_COUNT
    ensures var r := Resurrect(w);
      && r.level == w.level && r.hp == MAX_HP && r.ammo == 12 && r.timer == 0.0
      && r.enemies == StageLayout(w.level).enemies && r.items == StageLayout(w.level).items
      && r.player.isFireTrident == w.player.isFireTrident
      && r.state != GameOver
  {
    LoadStageResets(w, w.level);
  }

  /** Every screen transition keeps the run invariant. */
  lemma FlowKeepsInv(w: World, i: nat)
    requires Inv(w) && i < STAGE_COUNT
    ensures Inv(OpenStageSelect(w)) && Inv(SelectStage(w, i)) && Inv(BackToMenu(w))
    ensures Inv(Resurrect(w)) && Inv(ReturnToMenu(w)) && Inv(EndCutscene(w))
  {
    LoadStageKeepsInv(w, w.level);
    LoadStageKeepsInv(w, i);
  }
}

=== FILE: game.dfy ===
/** The engine as App.tsx runs it: one object whose fields are the React state
    and refs, updated in place by `initLevel`, `shoot`, `update` and the screen
    buttons. Each method is proved to leave exactly the state that the
    corresponding function of the pure model computes. */
module Game {
  import opened Geometry
  import opened Entities
  import opened Stage
  import opened Weapons
  import opened Physics
  import opened Combat
  import opened Tick
  import Pickups
  import Patrol
  import Flow

  class Game {
    var state: GameState
    var level: nat
    var hp: int
    var ammo: int
    var timer: real
    var player: Player
    var enemies: seq<Enemy>
    var projectiles: seq<Projectile>
    var items: seq<Item>
    var platforms: seq<Platform>
    var goal: Box
    var reward: Marker

    /** The fields gathered into one value of the pure model. */
    function Snapshot(): World
      reads this
    {
      World(state, level, hp, ammo, timer, player, enemies, projectiles, items, platforms, goal, reward)
    }

    ghost predicate Valid()
      reads this
    {
      Inv(Snapshot())
    }

    constructor()
      ensures Snapshot() == Initial() && Valid()
    {
      state := Menu;
      level := 0;
      hp := MAX_HP;
      ammo := 12;
      timer := 0.0;
      player := Player(50.0, 500.0, 0.0, 0.0, false, false, Gun, false);
      enemies := [];
      projectiles := [];
      items := [];
      platforms := [];
      goal := Box(750.0, 100.0, 60.0, 60.0);
      reward := Marker(0.0, 0.0, 0.0);
    }

    /** `initLevel(i)`: reset the counters, re-arm the player and build stage `i`. */
    method InitLevel(i: nat)
      requires i < STAGE_COUNT
      modifies this
      ensures Snapshot() == LoadStage(old(Snapshot()), i)
      ensures old(Valid()) ==> Valid()
    {
      hp := MAX_HP;
      ammo := 12;
      timer := 0.0;
      state := Playing;
      player := player.(x := 50.0, y := 400.0, vx := 0.0, vy := 0.0, isJumping := false,
                        weapon := if i == 9 then Trident else if i >= 7 then Rod else Gun);
      projectiles := [];
      BuildStage(i);
      assert Snapshot() == LoadStage(old(Snapshot()), i);
      if old(Valid()) {
        LoadStageKeepsInv(old(Snapshot()), i);
      }
    }

    /** The stage-specific part of `initLevel(i)`: the platforms, enemies, items
        and goal of stage `i`, and the cutscene that opens stage 9. */
    method BuildStage(i: nat)
      requires i < STAGE_COUNT
      modifies this
      ensures var layout := StageLayout(i);
        Snapshot() == old(Snapshot()).(enemies := layout.enemies, platforms := layout.platforms,
                                       items := layout.items, goal := layout.goal,
                                       state := if i == 9 then Cutscene else old(state))
    {
      enemies := [];
      platforms := [];
      items := [];
      if i == 1 || i == 6 {
        var bossHp := if i == 1 then 40 else 70;
        platforms := [Platform(0.0, 580.0, 800.0, 20.0, "#fef3c7")];
        enemies := [Enemy(400.0, 200.0, 140.0, 140.0, 3.0, 1.0, Boss, 1.0, false, Tracked(bossHp, bossHp))];
        goal := Box(720.0, 500.0, 60.0, 60.0);
      } else if i == 9 {
        state := Cutscene;
        platforms := [Platform(0.0, 550.0, 800.0, 50.0, "#111")];
        enemies := [Enemy(600.0, 350.0, 180.0, 180.0, 0.0, 0.0, King, -1.0, false, Tracked(150, 150))];
        goal := Box(-200.0, -200.0, 0.0, 0.0);
      } else {
        var c := PALETTE[i % |PALETTE|];
        platforms := [Platform(0.0, 580.0, 250.0, 20.0, c),
                      Platform(300.0, 450.0, 200.0, 20.0, c),
                      Platform(550.0, 320.0, 250.0, 20.0, c)];
        if i % 2 == 0 && i > 0 {
          items := items + [Item(350.0, 400.0, 35.0, 35.0, true, Potion)];
        }
        enemies := [Enemy(400.0, 405.0, 45.0, 45.0, 2.0, 0.0, Sour, 1.0, false, Untracked)];
        goal := Box(720.0, 260.0, 60.0, 60.0);
      }
    }

    /** `shoot()` with the aim direction given by its cosine and sine. */
    method Shoot(aimCos: real, aimSin: real)
      modifies this
      ensures Snapshot() == Fire(old(Snapshot()), aimCos, aimSin)
      ensures old(Valid()) ==> Valid()
    {
      if old(Valid()) {
        FireKeepsInv(Snapshot(), aimCos, aimSin);
      }
      if state != Playing {
        return;
      }
      if player.weapon == Gun && ammo <= 0 && timer <= 0.0 {
        return;
      }
      var p := player;
      if p.weapon == Trident {
        projectiles := projectiles + [Spawn(p, TridentShot(p.isFireTrident), 30.0, 20.0, aimCos, aimSin)];
      } else if p.weapon == Rod {
        var live := FindLiveHook(projectiles);
        if live {
          return;
        }
        projectiles := projectiles + [Spawn(p, HookShot, 12.0, 25.0, aimCos, aimSin)];
      } else {
        var isMop := timer > 0.0;
        projectiles := projectiles + [Spawn(p, if isMop then MopShot else PlainShot, 12.0, 18.0, aimCos, aimSin)];
        if !isMop {
          ammo := if ammo - 1 > 0 then ammo - 1 else 0;
        }
      }
    }

    /** `update()`: one tick with the given movement intent and boss bob offset. */
    method Update(input: Input, bob: real)
      modifies this
      ensures Snapshot() == Step(old(Snapshot()), input, bob)
      ensures old(Valid()) ==> Valid()
    {
      if old(Valid()) {
        StepKeepsInv(Snapshot(), input, bob);
      }
      if state != Playing && state != Reward {
        return;
      }
      ghost var w0 := Snapshot();
      CountDown();
      ClaimRewardIfNear();
      assert Snapshot() == ClaimReward(w0.(timer := DecayTimer(w0.timer)));
      MovePlayer(input);
      LandOnPlatforms();
      assert Snapshot() == Prelude(w0, input);
      CheckFall();
      CollectItems();
      MoveProjectiles();
      assert Snapshot() == Middle(Prelude(w0, input));
      MoveEnemies(bob);
      CheckGoal();
    }

    /** The power-up countdown of `update`. */
    method CountDown()
      modifies this
      ensures Snapshot() == old(Snapshot()).(timer := DecayTimer(old(timer)))
    {
      if timer > 0.0 {
        timer := Max(0.0, timer - 1.0 / 60.0);
      }
    }

    /** The reward block of `update`: fade the marker in and let a player who
        reaches it claim the empowered trident. */
    method ClaimRewardIfNear()
      modifies this
      ensures Snapshot() == ClaimReward(old(Snapshot()))
    {
      if state == Reward {
        reward := reward.(alpha := Min(1.0, reward.alpha + 0.02));
        var dx := (player.x + 22.0) - reward.x;
        var dy := (player.y + 22.0) - reward.y;
        if dx * dx + dy * dy < 2500.0 {
          player := player.(isFireTrident := true);
          state := Win;
        }
      }
    }

    /** Input to velocity and one step of gravity and integration. */
    method MovePlayer(input: Input)
      modifies this
      ensures Snapshot() == old(Snapshot()).(player := Move(old(player), input))
    {
      if input.left {
        player := player.(vx := -MOVE_SPEED, isFacingLeft := true);
      } else if input.right {
        player := player.(vx := MOVE_SPEED, isFacingLeft := false);
      } else {
        player := player.(vx := player.vx * 0.8);
      }
      if input.jump && !player.isJumping {
        player := player.(vy := JUMP_FORCE, isJumping := true);
      }
      player := player.(vy := player.vy + GRAVITY);
      player := player.(x := player.x + player.vx, y := player.y + player.vy);
    }

    /** The platform loop of `update`. */
    method LandOnPlatforms()
      modifies this
      ensures Snapshot() == old(Snapshot()).(player := Land(old(player), old(platforms)))
    {
      var k := 0;
      while k < |platforms|
        invariant 0 <= k <= |platforms|
        invariant Snapshot() == old(Snapshot()).(player := LandUpTo(old(player), platforms, k))
      {
        var plat := platforms[k];
        if player.x < plat.x + plat.width && player.x + PLAYER_SIZE > plat.x
           && player.y + PLAYER_SIZE > plat.y && player.y + PLAYER_SIZE < plat.y + 10.0 + player.vy
           && player.vy > 0.0
        {
          player := player.(y := plat.y - PLAYER_SIZE, vy := 0.0, isJumping := false);
        }
        k := k + 1;
      }
    }

    /** The fall check of `update`. */
    method CheckFall()
      modifies this
      ensures Snapshot() == FallOff(old(Snapshot()))
    {
      if player.y > CANVAS_HEIGHT {
        var next := hp - 1;
        if next <= 0 {
          state := GameOver;
          hp := 0;
        } else {
          player := player.(x := 50.0, y := 400.0, vy := 0.0);
          hp := next;
        }
      }
    }

    /** The item loop of `update`. */
    method CollectItems()
      modifies this
      ensures Snapshot() == Pickups.Collect(old(Snapshot()))
    {
      var k := 0;
      while k < |items|
        invariant |items| == |old(items)|
        invariant 0 <= k <= |items|
        invariant Snapshot() == Pickups.CollectUpTo(old(Snapshot()), k)
      {
        var it := items[k];
        if it.active && player.x < it.x + it.width && player.x + PLAYER_SIZE > it.x
           && player.y < it.y + it.height && player.y + PLAYER_SIZE > it.y
        {
          items := items[k := it.(active := false)];
          if it.kind == AmmoBox {
            ammo := ammo + Pickups.AMMO_PER_BOX;
          }
          if it.kind == Potion {
            timer := POTION_TIME;
          }
        }
        k := k + 1;
      }
    }

    /** The projectile loop of `update`: each active projectile moves one step
        and then meets every enemy. */
    method MoveProjectiles()
      modifies this
      ensures Snapshot() == Volley(old(Snapshot()))
    {
      var i := 0;
      while i < |projectiles|
        invariant |projectiles| == |old(projectiles)| && |enemies| == |old(enemies)|
        invariant 0 <= i <= |projectiles|
        invariant Snapshot() == VolleyUpTo(old(Snapshot()), i)
      {
        if projectiles[i].active {
          var pr := projectiles[i];
          projectiles := projectiles[i := pr.(x := pr.x + pr.vx, y := pr.y + pr.vy)];
          StrikeEnemies(i);
        }
        i := i + 1;
      }
    }

    /** The inner enemy loop for projectile `i`. */
    method StrikeEnemies(i: nat)
      requires i < |projectiles|
      modifies this
      ensures Snapshot() == StrikeUpTo(old(Snapshot()), i, |old(enemies)|)
    {
      var j := 0;
      while j < |enemies|
        invariant |projectiles| == |old(projectiles)| && |enemies| == |old(enemies)|
        invariant 0 <= j <= |enemies|
        invariant Snapshot() == StrikeUpTo(old(Snapshot()), i, j)
      {
        StrikeEnemy(i, j);
        j := j + 1;
      }
    }

    /** The body of the inner loop: projectile `i` against enemy `j`. */
    method StrikeEnemy(i: nat, j: nat)
      requires i < |projectiles| && j < |enemies|
      modifies this
      ensures Snapshot() == StrikeOne(old(Snapshot()), i, j)
    {
      var en := enemies[j];
      var pr := projectiles[i];
      if en.isDead || !(pr.x > en.x && pr.x < en.x + en.width && pr.y > en.y && pr.y < en.y + en.height) {
        return;
      }
      if !pr.isPlayerOwned {
        return;
      }
      projectiles := projectiles[i := pr.(active := false)];
      if en.pool.Tracked? {
        var left := en.pool.hp - Damage(pr.shot);
        var hit := en.(pool := Tracked(left, en.pool.maxHp));
        if left <= 0 {
          hit := hit.(isDead := true);
          if en.kind == King {
            state := Reward;
            reward := Marker(hit.x + hit.width / 2.0, hit.y + hit.height / 2.0, 0.0);
          }
        }
        enemies := enemies[j := hit];
      } else {
        enemies := enemies[j := en.(isDead := true)];
      }
    }

    /** The enemy loop of `update`: patrol and contact damage. */
    method MoveEnemies(bob: real)
      modifies this
      ensures Snapshot() == Patrol.PatrolAll(old(Snapshot()), bob)
    {
      var j := 0;
      while j < |enemies|
        invariant |enemies| == |old(enemies)|
        invariant 0 <= j <= |enemies|
        invariant Snapshot() == Patrol.PatrolUpTo(old(Snapshot()), j, bob)
      {
        PatrolEnemy(j, bob);
        j := j + 1;
      }
    }

    /** The body of the enemy loop for enemy `j`. */
    method PatrolEnemy(j: nat, bob: real)
      requires j < |enemies|
      modifies this
      ensures Snapshot() == Patrol.PatrolOne(old(Snapshot()), j, bob)
    {
      var en := enemies[j];
      if en.isDead {
        return;
      }
      if en.kind == Boss || en.kind == King {
        en := en.(y := en.y + bob);
      }
      en := en.(x := en.x + en.vx * en.direction);
      if en.x < 0.0 || en.x + en.width > CANVAS_WIDTH {
        en := en.(direction := -en.direction);
      }
      assert en == Patrol.Patrolled(old(enemies[j]), bob);
      enemies := enemies[j := en];
      if player.x < en.x + en.width && player.x + PLAYER_SIZE > en.x
         && player.y < en.y + en.height && player.y + PLAYER_SIZE > en.y
      {
        var next := hp - 1;
        if next <= 0 {
          state := GameOver;
          hp := 0;
        } else {
          player := player.(vx := if player.x < en.x then -15.0 else 15.0);
          hp := next;
        }
      }
    }

    /** The goal check of `update`: the next stage, or the win after the last. */
    method CheckGoal()
      modifies this
      ensures Snapshot() == ReachGoal(old(Snapshot()))
    {
      if player.x < goal.x + goal.width && player.x + PLAYER_SIZE > goal.x
         && player.y < goal.y + goal.height && player.y + PLAYER_SIZE > goal.y
      {
        var next := level + 1;
        if next < STAGE_COUNT {
          level := next;
          InitLevel(next);
        } else {
          state := Win;
        }
      }
    }

    /** PLAY GAME. */
    method PressPlay()
      modifies this
      ensures Snapshot() == Flow.OpenStageSelect(old(Snapshot()))
      ensures old(Valid()) ==> Valid()
    {
      if state == Menu {
        state := LevelSelect;
      }
    }

    /** The button of stage `i` on the stage-select screen. */
    method PressStage(i: nat)
      requires i < STAGE_COUNT
      modifies this
      ensures Snapshot() == Flow.SelectStage(old(Snapshot()), i)
      ensures old(Valid()) ==> Valid()
    {
      if old(Valid()) {
        Flow.FlowKeepsInv(Snapshot(), i);
      }
      if state == LevelSelect {
        level := i;
        InitLevel(i);
      }
    }

    /** BACK TO MENU. */
    method PressBack()
      modifies this
      ensures Snapshot() == Flow.BackToMenu(old(Snapshot()))
      ensures old(Valid()) ==> Valid()
    {
      if state == LevelSelect {
        state := Menu;
      }
    }

    /** RESURRECT. */
    method PressResurrect()
      requires level < STAGE_COUNT
      modifies this
      ensures Snapshot() == Flow.Resurrect(old(Snapshot()))
      ensures old(Valid()) ==> Valid()
    {
      if state == GameOver {
        InitLevel(level);
      }
    }

    /** MAIN MENU. */
    method PressMainMenu()
      modifies this
      ensures Snapshot() == Flow.ReturnToMenu(old(Snapshot()))
      ensures old(Valid()) ==> Valid()
    {
      if state == Win {
        state := Menu;
      }
    }

    /** The delayed end of the king's cutscene. */
    method CloseCutscene()
      modifies this
      ensures Snapshot() == Flow.EndCutscene(old(Snapshot()))
      ensures old(Valid()) ==> Valid()
    {
      if state == Cutscene {
        state := Playing;
      }
    }
  }
}

=== FILE: geometry.dfy ===
/** Playfield constants (constants.ts) and the strict rectangle tests that every
    collision check of the engine is built from. */
module Geometry {

  const GRAVITY: real := 0.5
  const JUMP_FORCE: real := -13.5
  const MOVE_SPEED: real := 5.5
  const CANVAS_WIDTH: real := 800.0
  const CANVAS_HEIGHT: real := 600.0

  /** An axis-aligned rectangle: top-left corner and size. */
  datatype Box = Box(x: real, y: real, width: real, height: real)

  /** Open overlap test: rectangles that only share an edge do not overlap. */
  predicate Overlaps(a: Box, b: Box)
    ensures a.x + a.width == b.x || b.x + b.width == a.x ==> !Overlaps(a, b)
    ensures a.y + a.height == b.y || b.y + b.height == a.y ==> !Overlaps(a, b)
  {
    a.x < b.x + b.width && a.x + a.width > b.x && a.y < b.y + b.height && a.y + a.height > b.y
  }

  /** Strict point-in-rectangle test (a point on the border is outside). */
  predicate Contains(b: Box, px: real, py: real)
    ensures px == b.x || px == b.x + b.width || py == b.y || py == b.y + b.height ==> !Contains(b, px, py)
    ensures Contains(b, px, py) ==> b.width > 0.0 && b.height > 0.0
  {
    px > b.x && px < b.x + b.width && py > b.y && py < b.y + b.height
  }

  function Min(a: real, b: real): (m: real)
    ensures m <= a && m <= b && (m == a || m == b)
  {
    if a <= b then a else b
  }

  function Max(a: real, b: real): (m: real)
    ensures m >= a && m >= b && (m == a || m == b)
  {
    if a >= b then a else b
  }
}

=== FILE: patrol.dfy ===
/** Enemy patrol and contact damage: the walk over the enemies during one tick. */
module Patrol {
  import opened Geometry
  import opened Entities

  /** A living enemy after its move: bosses and the king bob vertically by
      `bob`, every enemy advances by vx * direction, and the direction flips
      when the enemy is past the left edge or sticks out past the right one. */
  function Patrolled(en: Enemy, bob: real): (r: Enemy)
    ensures r == en.(x := r.x, y := r.y, direction := r.direction)
  {
    var e1 := if en.kind == Boss || en.kind == King then en.(y := en.y + bob) else en;
    var e2 := e1.(x := e1.x + e1.vx * e1.direction);
    if e2.x < 0.0 || e2.x + e2.width > CANVAS_WIDTH then e2.(direction := -e2.direction) else e2
  }

  /** A living enemy that overlaps the player once it has moved. */
  predicate Touches(p: Player, en: Enemy, bob: real)
    ensures en.isDead ==> !Touches(p, en, bob)
    ensures Touches(p, en, bob) ==>
      var m := Patrolled(en, bob);
      m.x < p.x + PLAYER_SIZE && p.x < m.x + en.width && m.y < p.y + PLAYER_SIZE && p.y < m.y + en.height
  {
    !en.isDead && Overlaps(p.Bounds(), Patrolled(en, bob).Bounds())
  }

  /** The loop body for enemy `j`: move, then one unit of contact damage. A hit
      that leaves no hp ends the run; otherwise the player is knocked away from
      the enemy. */
  function PatrolOne(w: World, j: nat, bob: real): (r: World)
    requires j < |w.enemies|
    ensures |r.enemies| == |w.enemies|
  {
    var en := w.enemies[j];
    if en.isDead then w
    else
      var moved := Patrolled(en, bob);
      var w1 := w.(enemies := w.enemies[j := moved]);
      if !Overlaps(w.player.Bounds(), moved.Bounds()) then w1
      else if w.hp - 1 <= 0 then w1.(hp := 0, state := GameOver)
      else w1.(hp := w.hp - 1, player := w.player.(vx := if w.player.x < moved.x then -15.0 else 15.0))
  }

  /** The enemy loop after its first `k` enemies. */
  function PatrolUpTo(w: World, k: nat, bob: real): (r: World)
    requires k <= |w.enemies|
    ensures |r.enemies| == |w.enemies|
  {
    if k == 0 then w else PatrolOne(PatrolUpTo(w, k - 1, bob), k - 1, bob)
  }

  /** The whole enemy loop: only the enemies, hp, state and the player's vx
      change; a dead enemy stays exactly as it was. */
  function PatrolAll(w: World, bob: real): (r: World)
    ensures r == w.(enemies := r.enemies, hp := r.hp, state := r.state, player := r.player)
    ensures r.player == w.player.(vx := r.player.vx)
    ensures |r.enemies| == |w.enemies|
    ensures forall j :: 0 <= j < |w.enemies| && w.enemies[j].isDead ==> r.enemies[j] == w.enemies[j]
  {
    PatrolMoves(w, |w.enemies|, bob);
    PatrolUpTo(w, |w.enemies|, bob)
  }

  /** How many enemies among `es` touch the player after moving. */
  function Contacts(p: Player, es: seq<Enemy>, bob: real): nat {
    if es == [] then 0
    else Contacts(p, es[..|es| - 1], bob) + (if Touches(p, es[|es| - 1], bob) then 1 else 0)
  }

  /** Knockback from one contact the player survives: away from the enemy. */
  lemma KnockbackAway(w: World, j: nat, bob: real)
    requires j < |w.enemies| && Touches(w.player, w.enemies[j], bob) && w.hp - 1 > 0
    ensures var r := PatrolOne(w, j, bob);
      && r.hp == w.hp - 1 && r.state == w.state
      && r.player.vx == (if w.player.x < Patrolled(w.enemies[j], bob).x then -15.0 else 15.0)
  {
  }

  /** One step of the enemy loop moves enemy `j` if it is alive and changes
      nothing else but hp, state and the player's vx. */
  lemma PatrolOneShape(q: World, j: nat, bob: real)
    requires j < |q.enemies|
    ensures var r := PatrolOne(q, j, bob);
      && r == q.(enemies := r.enemies, hp := r.hp, state := r.state, player := r.player)
      && r.player == q.player.(vx := r.player.vx)
      && r.enemies == q.enemies[j := if q.enemies[j].isDead then q.enemies[j] else Patrolled(q.enemies[j], bob)]
  {
  }

  /** The enemy loop moves each living enemy and leaves dead ones exactly as
      they were. */
  lemma {:induction false} PatrolMoves(w: World, k: nat, bob: real)
    requires k <= |w.enemies|
    ensures var r := PatrolUpTo(w, k, bob);
      && r == w.(enemies := r.enemies, hp := r.hp, state := r.state, player := r.player)
      && r.player == w.player.(vx := r.player.vx)
      && (forall j :: 0 <= j < |w.enemies| ==>
            r.enemies[j] == (if j < k && !w.enemies[j].isDead then Patrolled(w.enemies[j], bob) else w.enemies[j]))
  {
    if k > 0 {
      PatrolMoves(w, k - 1, bob);
      PatrolOneShape(PatrolUpTo(w, k - 1, bob), k - 1, bob);
    }
  }

  /** Contact damage over the enemy loop: every touching enemy costs exactly
      one hp, hp is floored at 0 and the state becomes `gameover` once it runs
      out; knockback only ever sets vx to -15 or 15. */
  lemma {:induction false} PatrolHurts(w: World, k: nat, bob: real)
    requires k <= |w.enemies|
    ensures var r := PatrolUpTo(w, k, bob); var n := Contacts(w.player, w.enemies[..k], bob);
      && r.hp == (if n > 0 && w.hp - n <= 0 then 0 else w.hp - n)
      && r.state == (if n > 0 && w.hp - n <= 0 then GameOver else w.state)
      && (r.player.vx == w.player.vx || r.player.vx == -15.0 || r.player.vx == 15.0)
  {
    if k > 0 {
      PatrolHurts(w, k - 1, bob);
      PatrolMoves(w, k - 1, bob);
      var q := PatrolUpTo(w, k - 1, bob);
      assert q.enemies[k - 1] == w.enemies[k - 1];
      assert q.player.Bounds() == w.player.Bounds();
      assert w.enemies[..k][..k - 1] == w.enemies[..k - 1];
      assert w.enemies[..k][k - 1] == w.enemies[k - 1];
    }
  }

  /** Alive or dead, every enemy keeps its kind, its flag and its hp pool. */
  lemma PatrolKeepsEnemies(w: World, bob: real)
    ensures var r := PatrolAll(w, bob);
      |r.enemies| == |w.enemies| &&
      forall j :: 0 <= j < |w.enemies| ==>
        r.enemies[j].kind == w.enemies[j].kind && r.enemies[j].isDead == w.enemies[j].isDead &&
        r.enemies[j].pool == w.enemies[j].pool && (w.enemies[j].isDead ==> r.enemies[j] == w.enemies[j])
  {
    PatrolMoves(w, |w.enemies|, bob);
  }

  lemma PatrolKeepsInv(w: World, bob: real)
    requires Inv(w)
    ensures Inv(PatrolAll(w, bob))
  {
    PatrolHurts(w, |w.enemies|, bob);
    PatrolMoves(w, |w.enemies|, bob);
    PatrolKeepsEnemies(w, bob);
    var r := PatrolAll(w, bob);
    assert AllSound(r.enemies) by {
      forall j | 0 <= j < |r.enemies| ensures Sound(r.enemies[j]) {
        assert Sound(w.enemies[j]);
      }
    }
  }
}

=== FILE: physics.dfy ===
/** Player movement of one tick: input to velocity, gravity integration, and the
    one-sided landing on platforms. */
module Physics {
  import opened Geometry
  import opened Entities

  /** The movement intent sampled for one tick. */
  datatype Input = Input(left: bool, right: bool, jump: bool)

  /** Input to velocity, then one step of gravity and position integration.
      Left wins over right; with neither, horizontal speed decays by 0.8. A jump
      starts only from the ground. */
  function Move(p: Player, input: Input): (r: Player)
    ensures r.weapon == p.weapon && r.isFireTrident == p.isFireTrident
    ensures r.vx == (if input.left then -MOVE_SPEED else if input.right then MOVE_SPEED else p.vx * 0.8)
    ensures r.x == p.x + r.vx && r.y == p.y + r.vy
    ensures r.isJumping == (p.isJumping || input.jump)
    ensures r.vy == (if input.jump && !p.isJumping then JUMP_FORCE else p.vy) + GRAVITY
  {
    var p1 := if input.left then p.(vx := -MOVE_SPEED, isFacingLeft := true)
              else if input.right then p.(vx := MOVE_SPEED, isFacingLeft := false)
              else p.(vx := p.vx * 0.8);
    var p2 := if input.jump && !p1.isJumping then p1.(vy := JUMP_FORCE, isJumping := true) else p1;
    var p3 := p2.(vy := p2.vy + GRAVITY);
    p3.(x := p3.x + p3.vx, y := p3.y + p3.vy)
  }

  /** The landing test against one platform: horizontal overlap, falling
      (vy > 0 strictly), and the bottom edge strictly inside the band that
      reaches 10 + vy below the platform top. */
  predicate LandsOn(p: Player, plat: Platform)
    ensures LandsOn(p, plat) ==>
      p.vy > 0.0 && Overlaps(p.Bounds(), Box(plat.x, plat.y, plat.width, 10.0 + p.vy))
  {
    && p.x < plat.x + plat.width && p.x + PLAYER_SIZE > plat.x
    && p.y + PLAYER_SIZE > plat.y && p.y + PLAYER_SIZE < plat.y + 10.0 + p.vy
    && p.vy > 0.0
  }

  /** The player standing on the platform top, at rest and grounded. */
  function Snap(p: Player, plat: Platform): (r: Player)
    ensures r == p.(y := r.y, vy := r.vy, isJumping := r.isJumping)
    ensures r.y + PLAYER_SIZE == plat.y && r.vy == 0.0 && !r.isJumping
    ensures !LandsOn(r, plat)
  {
    p.(y := plat.y - PLAYER_SIZE, vy := 0.0, isJumping := false)
  }

  /** The platform loop after its first `k` platforms. */
  function LandUpTo(p: Player, plats: seq<Platform>, k: nat): (r: Player)
    requires k <= |plats|
    ensures r == p.(y := r.y, vy := r.vy, isJumping := r.isJumping)
  {
    if k == 0 then p
    else
      var q := LandUpTo(p, plats, k - 1);
      if LandsOn(q, plats[k - 1]) then Snap(q, plats[k - 1]) else q
  }

  function Land(p: Player, plats: seq<Platform>): (r: Player)
    ensures r == p.(y := r.y, vy := r.vy, isJumping := r.isJumping)
  {
    LandUpTo(p, plats, |plats|)
  }

  /** The platform loop lands the player on the first platform whose test
      passes, exactly on its top with vy = 0 and not jumping; when no test
      passes the player is untouched. A landing zeroes vy, so later platforms
      cannot take over. */
  lemma {:induction false} LandOnFirstSupport(p: Player, plats: seq<Platform>, k: nat)
    requires k <= |plats|
    ensures (forall m :: 0 <= m < k ==> !LandsOn(p, plats[m])) ==> LandUpTo(p, plats, k) == p
    ensures forall m :: 0 <= m < k && LandsOn(p, plats[m]) && (forall j :: 0 <= j < m ==> !LandsOn(p, plats[j])) ==>
              LandUpTo(p, plats, k) == Snap(p, plats[m])
  {
    if k > 0 {
      LandOnFirstSupport(p, plats, k - 1);
      var q := LandUpTo(p, plats, k - 1);
      forall m | 0 <= m < k && LandsOn(p, plats[m]) && (forall j :: 0 <= j < m ==> !LandsOn(p, plats[j]))
        ensures LandUpTo(p, plats, k) == Snap(p, plats[m])
      {
        if m < k - 1 {
          assert q == Snap(p, plats[m]);
          assert !LandsOn(q, plats[k - 1]);
        } else {
          assert q == p;
        }
      }
    }
  }

  /** The landing property: when some platform passes the test, the player ends
      the loop resting exactly on the top of a platform that passed it. */
  lemma LandingIsExact(p: Player, plats: seq<Platform>, m: nat)
    requires m < |plats| && LandsOn(p, plats[m])
    ensures exists k :: 0 <= k < |plats| && LandsOn(p, plats[k]) &&
              Land(p, plats).y + PLAYER_SIZE == plats[k].y
    ensures Land(p, plats).vy == 0.0 && !Land(p, plats).isJumping
  {
    var k := m;
    while k > 0 && exists j :: 0 <= j < k && LandsOn(p, plats[j])
      invariant 0 <= k <= m && LandsOn(p, plats[k])
      decreases k
    {
      var j :| 0 <= j < k && LandsOn(p, plats[j]);
      k := j;
    }
    LandOnFirstSupport(p, plats, |plats|);
    assert Land(p, plats) == Snap(p, plats[k]);
  }

  /** Gravity is added before the landing test, so a player standing still on a
      platform falls by 0.5, passes the test and is put back on the same spot
      every tick. */
  lemma RestingPlayerIsResnapped(p: Player, plat: Platform)
    requires p.vx == 0.0 && p.vy == 0.0 && p.y + PLAYER_SIZE == plat.y
    requires p.x < plat.x + plat.width && p.x + PLAYER_SIZE > plat.x
    ensures var q := Move(p, Input(false, false, false));
      && q.vy == GRAVITY && LandsOn(q, plat)
      && Land(q, [plat]) == Snap(q, plat) && Snap(q, plat).y == p.y
  {
    LandOnFirstSupport(Move(p, Input(false, false, false)), [plat], 1);
  }

  /** A player that is not falling at the test (vy <= 0 after gravity: rising,
      or exactly at the top of a jump) lands on nothing, so it passes through a
      platform from below. */
  lemma NotFallingPassesThrough(p: Player, plats: seq<Platform>)
    requires p.vy <= 0.0
    ensures Land(p, plats) == p
  {
    LandOnFirstSupport(p, plats, |plats|);
  }
}

=== FILE: pickups.dfy ===
/** Item pickup: the walk over the items during one tick. */
module Pickups {
  import opened Geometry
  import opened Entities

  const AMMO_PER_BOX: int := 15

  /** An item the player collects: still active and overlapping the player. */
  predicate Touches(p: Player, it: Item)
    ensures !it.active ==> !Touches(p, it)
    ensures Touches(p, it) ==>
      it.x < p.x + PLAYER_SIZE && p.x < it.x + it.width && it.y < p.y + PLAYER_SIZE && p.y < it.y + it.height
  {
    it.active && Overlaps(p.Bounds(), it.Bounds())
  }

  /** The loop body for item `i`. */
  function CollectOne(w: World, i: nat): (r: World)
    requires i < |w.items|
    ensures |r.items| == |w.items|
    ensures r.enemies == w.enemies && r.projectiles == w.projectiles && r.player == w.player
  {
    var it := w.items[i];
    if !Touches(w.player, it) then w
    else
      w.(items := w.items[i := it.(active := false)],
         ammo := if it.kind == AmmoBox then w.ammo + AMMO_PER_BOX else w.ammo,
         timer := if it.kind == Potion then POTION_TIME else w.timer)
  }

  /** The item loop after its first `k` items. */
  function CollectUpTo(w: World, k: nat): (r: World)
    requires k <= |w.items|
    ensures |r.items| == |w.items|
    ensures r.enemies == w.enemies && r.projectiles == w.projectiles && r.player == w.player
  {
    if k == 0 then w else CollectOne(CollectUpTo(w, k - 1), k - 1)
  }

  /** The whole item loop: only items, ammo and timer change; `CollectEffects`
      states each item's fate. */
  function Collect(w: World): (r: World)
    ensures r == w.(items := r.items, ammo := r.ammo, timer := r.timer)
    ensures r.ammo == w.ammo + AMMO_PER_BOX * AmmoBoxesTaken(w.player, w.items)
    ensures r.timer == (if PotionTaken(w.player, w.items) then POTION_TIME else w.timer)
  {
    CollectEffects(w, |w.items|);
    assert w.items[..|w.items|] == w.items;
    CollectUpTo(w, |w.items|)
  }

  /** How many ammo boxes among `items` the player collects. */
  function AmmoBoxesTaken(p: Player, items: seq<Item>): nat {
    if items == [] then 0
    else AmmoBoxesTaken(p, items[..|items| - 1])
         + (if Touches(p, items[|items| - 1]) && items[|items| - 1].kind == AmmoBox then 1 else 0)
  }

  predicate PotionTaken(p: Player, items: seq<Item>) {
    exists j :: 0 <= j < |items| && Touches(p, items[j]) && items[j].kind == Potion
  }

  /** The item loop consumes each touched item once (it becomes inactive and is
      otherwise unchanged), adds exactly 15 ammo per ammo box taken, and
      overwrites the power-up timer with 5 when a potion is taken. Nothing else
      changes. */
  lemma {:induction false} CollectEffects(w: World, k: nat)
    requires k <= |w.items|
    ensures var r := CollectUpTo(w, k);
      && r == w.(items := r.items, ammo := r.ammo, timer := r.timer)
      && (forall j :: 0 <= j < |w.items| ==>
            r.items[j] == (if j < k && Touches(w.player, w.items[j]) then w.items[j].(active := false) else w.items[j]))
      && r.ammo == w.ammo + AMMO_PER_BOX * AmmoBoxesTaken(w.player, w.items[..k])
      && r.timer == (if PotionTaken(w.player, w.items[..k]) then POTION_TIME else w.timer)
  {
    if k > 0 {
      CollectEffects(w, k - 1);
      var q := CollectUpTo(w, k - 1);
      assert q.items[k - 1] == w.items[k - 1];
      assert w.items[..k][..k - 1] == w.items[..k - 1];
      if PotionTaken(w.player, w.items[..k - 1]) {
        var j :| 0 <= j < k - 1 && Touches(w.player, w.items[..k - 1][j]) && w.items[..k - 1][j].kind == Potion;
        assert w.items[..k][j] == w.items[..k - 1][j];
      }
      if !Touches(w.player, w.items[k - 1]) || w.items[k - 1].kind != Potion {
        if PotionTaken(w.player, w.items[..k]) {
          var j :| 0 <= j < k && Touches(w.player, w.items[..k][j]) && w.items[..k][j].kind == Potion;
          assert j < k - 1 && w.items[..k - 1][j] == w.items[..k][j];
        }
      }
    }
  }

  /** Items only ever go from active to inactive. */
  lemma CollectNeverRevives(w: World)
    ensures var r := Collect(w);
      |r.items| == |w.items| && forall j :: 0 <= j < |w.items| && r.items[j].active ==> w.items[j].active
  {
    CollectEffects(w, |w.items|);
  }

  lemma CollectKeepsInv(w: World)
    requires Inv(w)
    ensures Inv(Collect(w))
  {
    CollectEffects(w, |w.items|);
  }
}

=== FILE: stage.dfy ===
/** Stage setup (`initLevel`): the run counters are reset and the fixed layout of
    the stage is put in place. */
module Stage {
  import opened Geometry
  import opened Entities

  /** The per-stage platforms, enemies, items and goal zone. */
  datatype Layout = Layout(platforms: seq<Platform>, enemies: seq<Enemy>, items: seq<Item>, goal: Box)

  const PALETTE: seq<string> := ["#4ade80", "#fbbf24", "#f87171", "#60a5fa", "#a78bfa", "#f472b6"]

  /** Stage 9 arms the trident, stages 7 and 8 the rod, every earlier stage the gun. */
  function WeaponForLevel(i: int): (wp: Weapon)
    requires 0 <= i < STAGE_COUNT
    ensures wp == Trident <==> i == 9
    ensures wp == Rod <==> i == 7 || i == 8
    ensures wp == Gun <==> i < 7
  {
    if i == 9 then Trident else if i >= 7 then Rod else Gun
  }

  predicate IsBossStage(i: int) { i == 1 || i == 6 }

  function StageLayout(i: int): (l: Layout)
    requires 0 <= i < STAGE_COUNT
    ensures |l.enemies| == 1 && !l.enemies[0].isDead
    ensures forall k :: 0 <= k < |l.platforms| ==>
      0.0 <= l.platforms[k].x && l.platforms[k].x + l.platforms[k].width <= CANVAS_WIDTH
    ensures i != 9 ==> 0.0 <= l.goal.x && l.goal.x + l.goal.width <= CANVAS_WIDTH
  {
    if IsBossStage(i) then
      var hp := if i == 1 then 40 else 70;
      Layout([Platform(0.0, 580.0, 800.0, 20.0, "#fef3c7")],
             [Enemy(400.0, 200.0, 140.0, 140.0, 3.0, 1.0, Boss, 1.0, false, Tracked(hp, hp))],
             [],
             Box(720.0, 500.0, 60.0, 60.0))
    else if i == 9 then
      Layout([Platform(0.0, 550.0, 800.0, 50.0, "#111")],
             [Enemy(600.0, 350.0, 180.0, 180.0, 0.0, 0.0, King, -1.0, false, Tracked(150, 150))],
             [],
             Box(-200.0, -200.0, 0.0, 0.0))
    else
      var c := PALETTE[i % |PALETTE|];
      Layout([Platform(0.0, 580.0, 250.0, 20.0, c),
              Platform(300.0, 450.0, 200.0, 20.0, c),
              Platform(550.0, 320.0, 250.0, 20.0, c)],
             [Enemy(400.0, 405.0, 45.0, 45.0, 2.0, 0.0, Sour, 1.0, false, Untracked)],
             if i % 2 == 0 && i > 0 then [Item(350.0, 400.0, 35.0, 35.0, true, Potion)] else [],
             Box(720.0, 260.0, 60.0, 60.0))
  }

  /** `initLevel(i)`: the stage index itself is not changed here (its callers set it). */
  function LoadStage(w: World, i: int): (r: World)
    requires 0 <= i < STAGE_COUNT
    ensures r.level == w.level && r.reward == w.reward
    ensures r.player.isFireTrident == w.player.isFireTrident && r.player.isFacingLeft == w.player.isFacingLeft
    ensures r.state == Playing || r.state == Cutscene
  {
    var layout := StageLayout(i);
    w.(state := if i == 9 then Cutscene else Playing,
       hp := MAX_HP, ammo := 12, timer := 0.0,
       player := w.player.(x := 50.0, y := 400.0, vx := 0.0, vy := 0.0, isJumping := false,
                           weapon := WeaponForLevel(i)),
       projectiles := [],
       enemies := layout.enemies, platforms := layout.platforms, items := layout.items,
       goal := layout.goal)
  }

  /** What every stage load resets, whatever the state before it. */
  lemma LoadStageResets(w: World, i: int)
    requires 0 <= i < STAGE_COUNT
    ensures var r := LoadStage(w, i);
      && r.hp == 3 && r.ammo == 12 && r.timer == 0.0 && r.projectiles == []
      && r.player.x == 50.0 && r.player.y == 400.0 && r.player.vx == 0.0 && r.player.vy == 0.0
      && !r.player.isJumping && r.player.weapon == WeaponForLevel(i)
      && r.player.isFireTrident == w.player.isFireTrident
      && r.level == w.level && r.reward == w.reward
      && r.state == (if i == 9 then Cutscene else Playing)
      && LoadStage(r, i) == r
  {
  }

  /** The layout of each kind of stage: a single boss on stages 1 and 6, the king
      alone on stage 9, and otherwise three platforms, one hp-less enemy and a
      potion on the even stages after the first. */
  lemma StageLayoutShape(i: int)
    requires 0 <= i < STAGE_COUNT
    ensures var l := StageLayout(i);
      && |l.enemies| == 1 && !l.enemies[0].isDead && Sound(l.enemies[0])
      && (IsBossStage(i) ==>
            l.enemies[0].kind == Boss
            && l.enemies[0].pool == Tracked(if i == 1 then 40 else 70, if i == 1 then 40 else 70))
      && (i == 9 ==> l.enemies[0].kind == King && l.enemies[0].pool == Tracked(150, 150))
      && (!IsBossStage(i) && i != 9 ==>
            |l.platforms| == 3 && l.enemies[0].kind == Sour && l.enemies[0].pool == Untracked
            && (|l.items| == 1 <==> i % 2 == 0 && i > 0)
            && (|l.items| == 1 ==> l.items[0].kind == Potion && l.items[0].active))
      && (l.enemies[0].kind == King <==> i == 9)
  {
  }

  /** A stage load establishes the run invariant from any state whose stage
      index and reward opacity are in range. */
  lemma LoadStageKeepsInv(w: World, i: int)
    requires 0 <= i < STAGE_COUNT
    requires w.level < STAGE_COUNT && 0.0 <= w.reward.alpha <= 1.0
    ensures Inv(LoadStage(w, i))
  {
    StageLayoutShape(i);
  }
}

=== FILE: tick.dfy ===
/** The per-tick step (`update`): the phases in their fixed order, and what a
    whole tick keeps or changes. */
module Tick {
  import opened Geometry
  import opened Entities
  import opened Stage
  import opened Physics
  import opened Pickups
  import opened Combat
  import opened Patrol

  /** The power-up countdown loses 1/60 s per tick and stops at 0. */
  function DecayTimer(t: real): (r: real)
    ensures t <= 0.0 ==> r == t
    ensures t > 0.0 ==> 0.0 <= r < t
    ensures t >= 1.0 / 60.0 ==> r == t - 1.0 / 60.0
    ensures 0.0 < t <= 1.0 / 60.0 ==> r == 0.0
  {
    if t > 0.0 then Max(0.0, t - 1.0 / 60.0) else t
  }

  /** The power-up timer after `n` ticks. */
  function DecayN(t: real, n: nat): (r: real)
    ensures t >= 0.0 ==> 0.0 <= r <= t
  {
    if n == 0 then t else DecayTimer(DecayN(t, n - 1))
  }

  /** While time is left the countdown is linear: 1/60 per tick. */
  lemma {:induction false} DecayLinear(t: real, n: nat)
    requires n as real <= 60.0 * t
    ensures DecayN(t, n) == t - n as real / 60.0
  {
    if n > 0 {
      DecayLinear(t, n - 1);
    }
  }

  /** A potion (timer 5) lasts exactly 300 ticks: after 299 some time is left,
      after 300 none is. */
  lemma PotionLasts300Ticks()
    ensures DecayN(POTION_TIME, 299) > 0.0 && DecayN(POTION_TIME, 300) == 0.0
  {
    DecayLinear(POTION_TIME, 299);
    DecayLinear(POTION_TIME, 300);
  }

  /** The reward sequence: the marker fades in by 0.02 per tick up to 1, and a
      player whose centre (x+22, y+22) is closer than 50 to the marker claims
      the empowered trident and wins. */
  function ClaimReward(w: World): (r: World)
    ensures w.state != Reward ==> r == w
    ensures r == w.(reward := r.reward, player := r.player, state := r.state)
    ensures r.player == w.player.(isFireTrident := r.player.isFireTrident)
    ensures r.state == w.state || r.state == Win
    ensures r.player.isFireTrident <==> w.player.isFireTrident || r.state != w.state
    ensures 0.0 <= w.reward.alpha <= 1.0 ==> w.reward.alpha <= r.reward.alpha <= 1.0
  {
    if w.state != Reward then w
    else
      var m := w.reward.(alpha := Min(1.0, w.reward.alpha + 0.02));
      var dx := (w.player.x + 22.0) - m.x;
      var dy := (w.player.y + 22.0) - m.y;
      if dx * dx + dy * dy < 2500.0 then w.(reward := m, player := w.player.(isFireTrident := true), state := Win)
      else w.(reward := m)
  }

  /** Falling below the playfield costs one hp; the player respawns at (50, 400)
      when some is left, and the run is over otherwise. */
  function FallOff(w: World): (r: World)
    ensures w.player.y <= CANVAS_HEIGHT ==> r == w
    ensures r == w.(hp := r.hp, state := r.state, player := r.player)
    ensures 0 <= w.hp ==> 0 <= r.hp <= w.hp
    ensures w.player.y > CANVAS_HEIGHT && w.hp > 0 ==> r.hp == w.hp - 1
    ensures r.player.isFireTrident == w.player.isFireTrident
    ensures r.state != w.state ==> r.state == GameOver && r.hp == 0
  {
    if w.player.y <= CANVAS_HEIGHT then w
    else if w.hp - 1 <= 0 then w.(hp := 0, state := GameOver)
    else w.(hp := w.hp - 1, player := w.player.(x := 50.0, y := 400.0, vy := 0.0))
  }

  /** Touching the goal loads the next stage, or wins after the last one. */
  function ReachGoal(w: World): (r: World)
    ensures !Overlaps(w.player.Bounds(), w.goal) ==> r == w
    ensures r == w || r == w.(state := Win) || (r.level == w.level + 1 && r.level < STAGE_COUNT)
    ensures r.player.isFireTrident == w.player.isFireTrident
    ensures Overlaps(w.player.Bounds(), w.goal) && w.level + 1 < STAGE_COUNT ==>
      && r.level == w.level + 1 && r.hp == MAX_HP && r.ammo == 12 && r.projectiles == []
      && r.enemies == StageLayout(w.level + 1).enemies && r.items == StageLayout(w.level + 1).items
      && r.platforms == StageLayout(w.level + 1).platforms && r.goal == StageLayout(w.level + 1).goal
      && (r.state == Cutscene <==> w.level + 1 == 9) && (r.state == Playing <==> w.level + 1 != 9)
    ensures Overlaps(w.player.Bounds(), w.goal) && w.level + 1 >= STAGE_COUNT ==> r == w.(state := Win)
  {
    if !Overlaps(w.player.Bounds(), w.goal) then w
    else
      var next := w.level + 1;
      if next < STAGE_COUNT then LoadStage(w, next).(level := next) else w.(state := Win)
  }

  /** The first phases of a tick, up to the platform loop. */
  function Prelude(w: World, input: Input): (r: World)
    ensures r.enemies == w.enemies && r.projectiles == w.projectiles && r.items == w.items
    ensures r.platforms == w.platforms && r.goal == w.goal && r.level == w.level && r.hp == w.hp
    ensures w.state == Playing ==> r.state == Playing
  {
    var w1 := ClaimReward(w.(timer := DecayTimer(w.timer)));
    w1.(player := Land(Move(w1.player, input), w1.platforms))
  }

  /** The rest of a tick, through the projectile loop. */
  function Middle(w: World): (r: World)
    ensures |r.enemies| == |w.enemies| && |r.projectiles| == |w.projectiles|
  {
    Volley(Collect(FallOff(w)))
  }

  /** One call of `update` with the given movement intent and boss bob offset. */
  function Step(w: World, input: Input, bob: real): (r: World)
    ensures w.state != Playing && w.state != Reward ==> r == w
  {
    if w.state != Playing && w.state != Reward then w
    else ReachGoal(PatrolAll(Middle(Prelude(w, input)), bob))
  }

  // ----- Properties of single phases -----

  /** A claim of the reward (player centre within 50 of the marker) sets the
      empowered flag and the state `win`; otherwise the marker fades in,
      capped at 1. */
  lemma ClaimRewardEffect(w: World)
    requires w.state == Reward
    ensures var r := ClaimReward(w);
      var dx := w.player.x + 22.0 - w.reward.x; var dy := w.player.y + 22.0 - w.reward.y;
      && r.reward.alpha == Min(1.0, w.reward.alpha + 0.02)
      && (dx * dx + dy * dy < 2500.0 ==> r.state == Win && r.player.isFireTrident)
      && (dx * dx + dy * dy >= 2500.0 ==> r.state == Reward && r.player == w.player)
  {
  }

  /** A fall costs exactly one hp; with none left the state is `gameover` and hp
      is 0, otherwise the player is back at (50, 400) with vy = 0. */
  lemma FallOffEffect(w: World)
    requires w.player.y > CANVAS_HEIGHT
    ensures var r := FallOff(w);
      && (w.hp - 1 <= 0 ==> r.hp == 0 && r.state == GameOver && r.player == w.player)
      && (w.hp - 1 > 0 ==>
            r.hp == w.hp - 1 && r.state == w.state
            && r.player.x == 50.0 && r.player.y == 400.0 && r.player.vy == 0.0)
  {
  }

  // ----- Properties of a whole tick -----

  /** Outside `playing` and `reward` a tick changes nothing. */
  lemma StepIdle(w: World, input: Input, bob: real)
    requires w.state != Playing && w.state != Reward
    ensures Step(w, input, bob) == w
  {
  }

  lemma PreludeKeepsInv(w: World, input: Input)
    requires Inv(w)
    ensures Inv(Prelude(w, input))
    ensures Prelude(w, input).enemies == w.enemies && Prelude(w, input).platforms == w.platforms
  {
  }

  lemma MiddleKeepsInv(w: World)
    requires Inv(w)
    ensures Inv(Middle(w))
  {
    CollectKeepsInv(FallOff(w));
    VolleyKeepsInv(Collect(FallOff(w)));
  }

  /** The run invariant holds after every tick: hp in [0, 3], ammo >= 0, the
      power-up timer in [0, 5], at most one live hook, every tracked enemy with
      hp <= maxHp and hp > 0 while alive, and the stage index in range. */
  lemma StepKeepsInv(w: World, input: Input, bob: real)
    requires Inv(w)
    ensures Inv(Step(w, input, bob))
  {
    if w.state == Playing || w.state == Reward {
      var w1 := Prelude(w, input);
      PreludeKeepsInv(w, input);
      var w2 := Middle(w1);
      MiddleKeepsInv(w1);
      var w3 := PatrolAll(w2, bob);
      PatrolKeepsInv(w2, bob);
      if Overlaps(w3.player.Bounds(), w3.goal) && w3.level + 1 < STAGE_COUNT {
        LoadStageKeepsInv(w3, w3.level + 1);
      }
    }
  }

  lemma PatrolWeakens(w: World, bob: real)
    ensures AllWeakened(w.enemies, PatrolAll(w, bob).enemies)
  {
    PatrolKeepsEnemies(w, bob);
  }

  /** The enemies before and after the middle of a tick. */
  lemma MiddleEffects(w: World)
    ensures var r := Middle(w);
      && AllWeakened(w.enemies, r.enemies)
      && r.level == w.level && r.goal == w.goal
      && r.player == FallOff(w).player
      && (r.state == Reward ==>
            (w.state == Reward && r.reward == w.reward) ||
            exists j :: 0 <= j < |w.enemies| && j < |r.enemies| &&
              KingSlain(w.enemies[j], r.enemies[j]) && r.reward == Anchor(r.enemies[j]))
  {
    var w3 := Collect(FallOff(w));
    CollectEffects(FallOff(w), |FallOff(w).items|);
    VolleyEffects(w3, |w3.projectiles|);
  }

  /** Within a stage enemies only weaken: hp never rises, a dead enemy is never
      moved or hit again and stays dead. The only other outcome of a tick is
      the load of the next stage with its fresh enemies. */
  lemma StepWeakensOrAdvances(w: World, input: Input, bob: real)
    ensures var r := Step(w, input, bob);
      || AllWeakened(w.enemies, r.enemies)
      || (&& r.level == w.level + 1 && r.level < STAGE_COUNT
          && r.enemies == StageLayout(r.level).enemies
          && (r.state == Playing || r.state == Cutscene))
  {
    if w.state == Playing || w.state == Reward {
      var w1 := Prelude(w, input);
      var w2 := Middle(w1);
      MiddleEffects(w1);
      PatrolWeakens(w2, bob);
      PatrolMoves(w2, |w2.enemies|, bob);
      AllWeakenedTrans(w.enemies, w2.enemies, PatrolAll(w2, bob).enemies);
    } else {
      assert AllWeakened(w.enemies, w.enemies);
    }
  }

  /** From `playing`, a tick ends in `reward` only when a king fell during it;
      the marker then sits at that king's centre. */
  lemma StepRewardOnlyFromKing(w: World, input: Input, bob: real)
    requires w.state == Playing
    ensures var r := Step(w, input, bob);
      r.state == Reward ==>
        exists j :: 0 <= j < |w.enemies| && j < |r.enemies| &&
          KingSlain(w.enemies[j], r.enemies[j]) && r.reward == Anchor(r.enemies[j])
  {
    var w1 := Prelude(w, input);
    var w2 := Middle(w1);
    var w3 := PatrolAll(w2, bob);
    var r := Step(w, input, bob);
    if r.state == Reward {
      assert r == w3;
      MiddleEffects(w1);
      PatrolHurts(w2, |w2.enemies|, bob);
      PatrolMoves(w2, |w2.enemies|, bob);
      assert w2.state == Reward;
      var j :| 0 <= j < |w1.enemies| && j < |w2.enemies| &&
        KingSlain(w1.enemies[j], w2.enemies[j]) && w2.reward == Anchor(w2.enemies[j]);
      assert w3.enemies[j] == w2.enemies[j];
    }
  }

  /** The empowered trident, once held, is never lost, and a tick that starts
      in `reward` with the player within reach of the marker grants it. */
  lemma StepKeepsFireTrident(w: World, input: Input, bob: real)
    ensures var r := Step(w, input, bob);
      && (w.player.isFireTrident ==> r.player.isFireTrident)
      && (w.state == Reward &&
          (w.player.x + 22.0 - w.reward.x) * (w.player.x + 22.0 - w.reward.x)
            + (w.player.y + 22.0 - w.reward.y) * (w.player.y + 22.0 - w.reward.y) < 2500.0
          ==> r.player.isFireTrident)
  {
    if w.state == Playing || w.state == Reward {
      var w1 := Prelude(w, input);
      var w2 := Middle(w1);
      MiddleEffects(w1);
      PatrolMoves(w2, |w2.enemies|, bob);
    }
  }
}

=== FILE: weapons.dfy ===
/** Weapon discharge (`shoot`): gun, rod and trident, with the ammo, power-up and
    single-hook gates. The aim angle is replaced by its cosine and sine. */
module Weapons {
  import opened Geometry
  import opened Entities
  import Stage

  /** Damage dealt to an hp-tracked enemy: trident 15, mop 10, anything else 2.
      The empowered trident deals the same damage as the plain one. */
  function Damage(s: Shot): (d: int)
    ensures d > 0
    ensures s.TridentShot? ==> d == 15
    ensures s.MopShot? ==> d == 10
    ensures !s.TridentShot? && !s.MopShot? ==> d == 2
  {
    match s
    case TridentShot(_) => 15
    case MopShot => 10
    case _ => 2
  }

  /** The three damage tiers are strictly ordered: trident, then mop, then the rest. */
  lemma DamageTiers(fire: bool, other: Shot)
    requires !other.TridentShot? && !other.MopShot?
    ensures Damage(TridentShot(fire)) > Damage(MopShot) > Damage(other)
  {
  }

  /** A projectile leaves from (x+20, y+20) of the player along the aim direction. */
  function Spawn(p: Player, shot: Shot, size: real, speed: real, aimCos: real, aimSin: real): (r: Projectile)
    ensures r.active && r.isPlayerOwned && r.shot == shot
    ensures r.x == p.x + 20.0 && r.y == p.y + 20.0 && r.width == size && r.height == size
    ensures aimCos * aimCos + aimSin * aimSin == 1.0 ==> r.vx * r.vx + r.vy * r.vy == speed * speed
  {
    Projectile(p.x + 20.0, p.y + 20.0, size, size, aimCos * speed, aimSin * speed, true, true, shot)
  }

  /** `shoot()`. Nothing happens outside the `playing` state, for an empty gun
      without the power-up, or for the rod while a hook is still live. */
  function Fire(w: World, aimCos: real, aimSin: real): (r: World)
    ensures |w.projectiles| <= |r.projectiles| <= |w.projectiles| + 1
    ensures r.projectiles[..|w.projectiles|] == w.projectiles
    ensures r == w.(projectiles := r.projectiles, ammo := r.ammo)
    ensures w.ammo >= 0 ==> r.ammo >= 0
    ensures r.ammo <= w.ammo
    ensures w.state != Playing ==> r == w
  {
    var p := w.player;
    if w.state != Playing then w
    else if p.weapon == Gun && w.ammo <= 0 && w.timer <= 0.0 then w
    else match p.weapon
      case Trident =>
        w.(projectiles := w.projectiles + [Spawn(p, TridentShot(p.isFireTrident), 30.0, 20.0, aimCos, aimSin)])
      case Rod =>
        if HasLiveHook(w.projectiles) then w
        else w.(projectiles := w.projectiles + [Spawn(p, HookShot, 12.0, 25.0, aimCos, aimSin)])
      case Gun =>
        var isMop := w.timer > 0.0;
        w.(projectiles := w.projectiles + [Spawn(p, if isMop then MopShot else PlainShot, 12.0, 18.0, aimCos, aimSin)],
           ammo := if isMop then w.ammo else if w.ammo - 1 > 0 then w.ammo - 1 else 0)
  }

  /** The gun: refused when empty without the power-up; a mop shot that costs no
      ammo while the power-up runs; otherwise a plain shot costing exactly one. */
  lemma FireGun(w: World, aimCos: real, aimSin: real)
    requires w.state == Playing && w.player.weapon == Gun
    ensures var r := Fire(w, aimCos, aimSin);
      && (w.ammo <= 0 && w.timer <= 0.0 ==> r == w)
      && (w.timer > 0.0 ==>
            r.ammo == w.ammo && r.projectiles == w.projectiles + [Spawn(w.player, MopShot, 12.0, 18.0, aimCos, aimSin)])
      && (w.timer <= 0.0 && w.ammo > 0 ==>
            r.ammo == w.ammo - 1 && r.projectiles == w.projectiles + [Spawn(w.player, PlainShot, 12.0, 18.0, aimCos, aimSin)])
  {
  }

  /** The rod: refused while any live hook exists, otherwise exactly one new hook. */
  lemma FireRod(w: World, aimCos: real, aimSin: real)
    requires w.state == Playing && w.player.weapon == Rod
    ensures var r := Fire(w, aimCos, aimSin);
      && (HasLiveHook(w.projectiles) ==> r == w)
      && (!HasLiveHook(w.projectiles) ==>
            r.projectiles == w.projectiles + [Spawn(w.player, HookShot, 12.0, 25.0, aimCos, aimSin)])
      && r.ammo == w.ammo
  {
  }

  /** Nothing removes projectiles, so a hook that hits nothing stays live for
      the rest of the stage, and the rod stays locked out until the next load. */
  lemma RodLockedOut(w: World, aimCos: real, aimSin: real)
    requires w.player.weapon == Rod && HasLiveHook(w.projectiles)
    ensures Fire(w, aimCos, aimSin) == w
  {
  }

  /** The trident always fires one projectile carrying the player's empowered flag, at no ammo cost. */
  lemma FireTrident(w: World, aimCos: real, aimSin: real)
    requires w.state == Playing && w.player.weapon == Trident
    ensures var r := Fire(w, aimCos, aimSin);
      && |r.projectiles| == |w.projectiles| + 1
      && r.projectiles[|w.projectiles|].shot == TridentShot(w.player.isFireTrident)
      && r.ammo == w.ammo
  {
  }

  /** Whatever the weapon, firing never makes a second hook live. */
  lemma FireKeepsOneHook(w: World, aimCos: real, aimSin: real)
    requires AtMostOneHook(w.projectiles)
    ensures AtMostOneHook(Fire(w, aimCos, aimSin).projectiles)
  {
    var r := Fire(w, aimCos, aimSin);
    var n := |w.projectiles|;
    if |r.projectiles| == n + 1 && LiveHook(r.projectiles[n]) {
      assert w.player.weapon == Rod && !HasLiveHook(w.projectiles);
      forall i | 0 <= i < n ensures !LiveHook(r.projectiles[i]) {
        assert r.projectiles[i] == r.projectiles[..n][i];
      }
    } else {
      forall i, j | 0 <= i < |r.projectiles| && 0 <= j < |r.projectiles| && LiveHook(r.projectiles[i]) && LiveHook(r.projectiles[j])
        ensures i == j
      {
        assert i < n && j < n;
        assert r.projectiles[i] == w.projectiles[i] && r.projectiles[j] == w.projectiles[j] by {
          assert r.projectiles[..n] == w.projectiles;
        }
      }
    }
  }

  lemma FireKeepsInv(w: World, aimCos: real, aimSin: real)
    requires Inv(w)
    ensures Inv(Fire(w, aimCos, aimSin))
  {
    FireKeepsOneHook(w, aimCos, aimSin);
  }

  /** `n` shots in a row along the same aim. */
  function FireTimes(w: World, n: nat, aimCos: real, aimSin: real): World
  {
    if n == 0 then w else Fire(FireTimes(w, n - 1, aimCos, aimSin), aimCos, aimSin)
  }

  /** Without the power-up, each gun shot takes one unit of ammo until none is
      left, and from then on no shot leaves the gun. */
  lemma {:induction false} GunDrainsMagazine(w: World, n: nat, aimCos: real, aimSin: real)
    requires w.state == Playing && w.player.weapon == Gun && w.timer <= 0.0 && w.ammo >= 0
    ensures var r := FireTimes(w, n, aimCos, aimSin);
      && r.ammo == (if n <= w.ammo then w.ammo - n else 0)
      && |r.projectiles| == |w.projectiles| + (if n <= w.ammo then n else w.ammo)
      && r.state == w.state && r.player == w.player && r.timer == w.timer
  {
    if n > 0 {
      GunDrainsMagazine(w, n - 1, aimCos, aimSin);
      FireGun(FireTimes(w, n - 1, aimCos, aimSin), aimCos, aimSin);
    }
  }

  /** On a gun stage, the twelve rounds of a fresh load are spent by twelve shots
      and the thirteenth shot fires nothing. */
  lemma TwelveShotsEmptyMagazine(w: World, i: int, aimCos: real, aimSin: real)
    requires 0 <= i < 7
    ensures var r := FireTimes(Stage.LoadStage(w, i), 12, aimCos, aimSin);
      && r.ammo == 0 && |r.projectiles| == 12
      && Fire(r, aimCos, aimSin) == r
  {
    GunDrainsMagazine(Stage.LoadStage(w, i), 12, aimCos, aimSin);
  }

  /** The scan over the projectiles that refuses a rod shot while a hook is live. */
  method FindLiveHook(ps: seq<Projectile>) returns (found: bool)
    ensures found <==> HasLiveHook(ps)
    ensures !found ==> forall i :: 0 <= i < |ps| ==> !LiveHook(ps[i])
  {
    var i := 0;
    while i < |ps|
      invariant 0 <= i <= |ps|
      invariant forall k :: 0 <= k < i ==> !LiveHook(ps[k])
    {
      if ps[i].shot.HookShot? && ps[i].active {
        return true;
      }
      i := i + 1;
    }
    return false;
  }
}
